=== FILE: README.md ===
# Turtle Pool, modelled in Dafny

Turtle Pool is a pygame billiards game on a table whose boundary is a
slowly breathing polygon. This project models the game logic of `main.py`
over exact reals. It covers:

- the balls and their motion;
- the contact test and reflection against the polygon's edges;
- ball-against-ball collisions;
- the opening rack;
- the pockets placed on the polygon's vertices;
- the search for a free spot for a pocketed cue ball;
- the capture and scoring step;
- the turn hand-over;
- the oscillating boundary parameter;
- one frame of `run` composed from these.

Vectors are pairs of reals. Every distance comparison of the source is made
on squared lengths, and the models prove the two equivalent
(`Vectors.LengthBelow`, `Vectors.LengthAtMost`). Where the source needs an
actual length (`normalize()`, `distance_to` inside a formula), the caller
supplies it:

- as a value `len` with `IsLength(len, v)`;
- or, where a pass over many pairs needs fresh lengths, as a function
  `root` with `IsSqrt(root)`.

The Python exceptions the code can raise are values of `Outcomes.Result`:

| fault | raised by |
|---|---|
| `ZeroDivision` | a zero-length edge in `collides_with_segment`; `num_holes == 0` |
| `ZeroLengthNormalize` | two balls with the same centre in `handle_ball_collision` |
| `ZeroRangeStep` | fewer polygon points than holes |
| `OutOfFuel` | a push-out loop that did not finish within its bound |

Modules follow the program:

| module | models |
|---|---|
| `Vectors` | vector arithmetic |
| `Outcomes` | errors as values |
| `Balls` | `Ball`, `Hole`, `move_ball` |
| `Walls` | `collides_with_segment`, `handle_ball_polygon_collision` |
| `BallCollisions` | `handle_ball_collision` and the pairwise pass |
| `Rack` | `setup_balls` |
| `Pockets` | `generate_holes_from_points`, `generate_holes` and the in-hole test |
| `Respawn` | `get_free_position` |
| `Turns` | `init_game_state`, `switch_player`, scoring and the turn rule |
| `Capture` | the capture block of `run` |
| `Boundary` | the `p` / `direction` update |
| `Game` | one frame |

Behaviour worth noting (where the code and a comment disagree, the model follows the code):

- A pocketed object ball adds to the score of the player whose turn it is.
  The comment at main.py:344 says the opponent gets the point, but the
  counter incremented is `score_player1` when `current_player == 1`
  (`Turns.AwardCapture`).
- A pocketed cue ball also sets `player_scored`, so a scratch keeps the
  turn just as potting an object ball does.
- Holes sit exactly on polygon vertices 0, step, 2·step, … . No offset is
  applied.
- `run` hands the turn over with `if current_player == 1: 2 else 1`
  (`Turns.Toggle`). `switch_player`, which is never called, computes
  `3 - current_player` (`Turns.SwitchPlayer`). The two agree on players 1
  and 2 (`Turns.ToggleIsSwitch`).
- The cue ball starts at (512, 924): horizontally centred, 100 above the
  bottom edge.

## Model

| member | source | states |
|---|---|---|
| Balls.NewBall | main.py:7-11 | a new ball is at rest, has radius 10, and has the given position and kind |
| Balls.Move | main.py:212-218 | the position advances by the old velocity; each velocity component shrinks by the friction factor 0.98 in magnitude; a component reverses sign exactly when the ball's new position touches the matching screen edge |
| Balls.FrictionNeverStops | main.py:13-15 | over exact reals a moving ball never comes to rest through friction |
| Walls.Clamp01 | main.py:223 | `max(0, min(1, u))` lies in [0,1], is `u` inside it, and is the nearer end outside |
| Walls.ProjectionParam | main.py:222-223 | the projection parameter is clamped to [0,1] |
| Walls.ProjectionIsNearest | main.py:222-224 | the clamped projection is the point of the segment nearest the ball's centre |
| Walls.TouchesIffDiscMeetsSegment | main.py:220-225 | the clamped-projection test holds exactly when some point of the segment is within the radius of the centre |
| Walls.CollidesWithSegment | main.py:220-225 | a zero-length edge fails with a division by zero, and only then; otherwise the answer is whether the ball's disc meets the segment |
| Walls.EdgeNormal | main.py:258 | the edge normal is a unit vector perpendicular to the edge, and it is the counter-clockwise one: the edge length times it is the edge turned by 90 degrees |
| Walls.Reflect | main.py:259-261 | reflection negates the normal component, keeps the tangential one, and keeps the speed |
| Walls.ReflectInvolutive | main.py:259-261 | reflecting twice in the same wall restores the velocity |
| Walls.ReflectKeepsAlongEdge | main.py:257-261 | reflection keeps the velocity component along the edge |
| Walls.PushOut | main.py:264-265 | the push-out loop stops at the first number of pushes after which the ball no longer touches the edge; every smaller count still touches; it runs out of fuel only when the ball still touches after every push count up to the fuel |
| Walls.WallCollision | main.py:257-265 | an edge the ball does not touch leaves it unchanged; on contact the normal velocity is negated, the velocity along the edge and the speed are kept, and the ball ends pushed along the normal by the first number of pushes that clears the edge, every smaller number still touching; a zero-length edge divides by zero, and running out of fuel means every push count up to the fuel still touches |
| Walls.WallPass | main.py:251-265 | the pass over every edge keeps radius, kind and speed; a division by zero happens only if some edge has zero length |
| Walls.WallPassQuiet | main.py:251-265 | a ball that touches no edge, on a polygon with no zero-length edge, comes through the pass unchanged and without failure |
| BallCollisions.ElasticExchange | main.py:288-289 | the one-dimensional update conserves momentum and kinetic energy, reverses the relative normal velocity, and swaps the normal velocities of equal masses |
| BallCollisions.Direction | main.py:273 | the normal is a unit vector, and `dist` times it is the vector between the centres |
| BallCollisions.Exchange | main.py:278-293 | the velocity update on a unit normal keeps both tangential components |
| BallCollisions.ExchangeComponents | main.py:278-293 | tangential components are kept; normal components are `v1n_new` and `v2n_new` |
| BallCollisions.ExchangeKeepsMomentum | main.py:282-293 | the velocity update conserves momentum `r1·v1 + r2·v2` as vectors |
| BallCollisions.ExchangeKeepsEnergy | main.py:282-293 | the velocity update conserves `r1·|v1|² + r2·|v2|²` |
| BallCollisions.ExchangeEqualMassesSwap | main.py:288-293 | balls of equal radius swap their normal components and keep their tangential ones |
| BallCollisions.Resolve | main.py:272-293 | the pair update keeps each ball's radius and kind and the sum of the two centres, and its new velocities are the exchange along the unit normal between the old centres |
| BallCollisions.ResolveSeparates | main.py:272-275 | separation keeps the midpoint of the centres and leaves them exactly `r1 + r2` apart along the old line of centres |
| BallCollisions.OverlapByLength | main.py:269-270 | the squared test is the source's `distance < r1 + r2`; the distance is zero exactly for equal centres |
| BallCollisions.Collide | main.py:267-293 | the only failure is normalizing a zero vector; radius and kind are kept |
| BallCollisions.CollideEqualRadiiSwap | main.py:267-293 | two overlapping balls of equal radius on distinct centres are resolved; they swap their velocity components along the line of centres and keep their tangential components |
| BallCollisions.CollideSkips | main.py:270 | balls that do not overlap are left exactly as they are |
| BallCollisions.CollideFailsOnlyOnSameCentre | main.py:270-273 | a failure means the balls overlap and share a centre |
| BallCollisions.CollideFailsOnSameCentre | main.py:270-273 | overlapping balls that share a centre always fail |
| BallCollisions.CollideKeepsMidpoint | main.py:272-275 | a collision keeps the sum of the two centres |
| BallCollisions.CollideLeavesTouching | main.py:270-275 | overlapping balls end exactly touching, with squared distance `(r1 + r2)²` |
| BallCollisions.CollideKeepsMomentum | main.py:267-293 | a collision conserves momentum, with radius as mass |
| BallCollisions.CollideKeepsEnergy | main.py:267-293 | a collision conserves kinetic energy, with radius as mass |
| BallCollisions.HeadOnExchange | main.py:288-293 | two standard balls meeting head on trade velocities |
| BallCollisions.PairUpdateKeepsTotals | main.py:366-368 | replacing one pair by its collision result keeps the table's momentum and centre sum |
| BallCollisions.CollideFrom | main.py:366-368 | the pairwise pass keeps the number of balls, each ball's radius and kind, the total momentum and the sum of the centres |
| BallCollisions.CollideAll | main.py:366-368 | the whole pairwise pass keeps the ball count, the total momentum and the sum of the centres |
| BallCollisions.CollideFromQuiet | main.py:366-368 | from any pair on, a table with no overlapping pair comes through the pass unchanged and without failure |
| BallCollisions.CollideAllQuiet | main.py:366-368 | a table with no overlapping pair comes through the whole pass unchanged and without failure |
| Rack.SetupBalls | main.py:100-110 | the opening list has 22 balls: the cue ball first and object balls after it |
| Rack.Slots | main.py:105-106 | the loops visit rows 1..rows, with columns below the row number |
| Rack.SlotsCount | main.py:105-106 | the loops visit `rows(rows+1)/2` slots |
| Rack.SlotIndex | main.py:105-106 | slot `(r, c)` is visited at index `T(r-1) + c` |
| Rack.SlotsDistinct | main.py:105-106 | no slot is visited twice |
| Rack.SlotColour | main.py:109 | every colour comes from the seven-colour palette |
| Rack.SetupShape | main.py:100-110 | the rack has 22 balls, the cue ball first at (512, 924); all are at rest with radius 10; the rest are object balls |
| Rack.SetupRackBall | main.py:105-110 | the ball for slot `(r, c)` is at index `T(r-1)+c+1`, with the slot's position and colour `(r+c) % 7` |
| Rack.SlotsApart | main.py:107-108 | distinct slots are at least one spacing (22) apart |
| Rack.SetupNoOverlap | main.py:100-110 | any two balls of the opening layout are at least 22 apart, more than two radii, so none overlap |
| Pockets.Stride | main.py:167 | the comprehension is empty exactly when it starts past the last vertex; every hole has radius 12 and sits on a vertex of the polygon |
| Pockets.StrideAt | main.py:167 | the `j`-th hole of the comprehension sits on vertex `start + j·step` |
| Pockets.StrideReachesEnd | main.py:167 | the comprehension runs until the next multiple passes the end |
| Pockets.HolesFromPoints | main.py:165-167 | zero holes divide by zero; fewer points than holes give a zero `range` step; with at least one hole and at least as many points as holes the call succeeds, and there are at least as many holes as asked for, hole `j` is on vertex `j·step` with radius 12, and the holes reach the end |
| Pockets.HolesAreStrideVertices | main.py:165-167 | every vertex whose index is a multiple of the step carries a hole |
| Pockets.SevenHolesOnFourteenVertices | main.py:136-140 | for the fourteen-vertex table, seven holes land exactly on the even-indexed vertices |
| Pockets.InHoleByDistance | main.py:337 | the squared in-hole test is the source's `distance < hole.radius` |
| Respawn.BlocksByDistance | main.py:118 | the squared blocking test is the source's `distance < 2 * radius` |
| Respawn.NotBlockingBeyond | main.py:118-119 | a ball stops blocking the diagonal once the walk has passed it in x |
| Respawn.SearchBound | main.py:118-119 | the bound is beyond every ball's last blocking step |
| Respawn.BlockedBeforeBound | main.py:118-119 | only candidates before the bound can be blocked, so the search ends |
| Respawn.FreeSteps | main.py:117-120 | the search stops at the first free candidate: every earlier candidate is blocked |
| Respawn.FreePosition | main.py:115-120 | the place is the centre plus k·(5,5) for a k before which every candidate is blocked, and it is clear of every ball |
| Respawn.FreeCentre | main.py:117-118 | if nothing blocks the centre, the centre is returned |
| Respawn.FreeStepsIsFirst | main.py:117-120 | the first free candidate is unique |
| Respawn.GetFreePosition | main.py:115-120 | the loop returns the free position, and it is clear of every ball |
| Turns.SwitchPlayer | main.py:112-113 | `3 - p` maps 1 to 2 and 2 to 1, and nothing else to either |
| Turns.SwitchInvolutive | main.py:112-113 | switching twice gives the player back |
| Turns.Toggle | main.py:354-357 | the hand-over always yields player 1 or 2, never the current one |
| Turns.ToggleIsSwitch | main.py:354-357 | on players 1 and 2 the hand-over in `run` agrees with `switch_player` |
| Turns.AwardCapture | main.py:339-347 | a capture sets the scored flag and keeps the player; an object ball adds one to the current player's counter and leaves the other alone; a cue ball adds nothing |
| Turns.AwardCaptureTotals | main.py:343-346 | scores never decrease, and a capture adds at most one point in total |
| Turns.EndOfTick | main.py:349-361 | the player changes exactly when all balls stopped, they were moving, and nobody scored; the flag clears exactly on that moving-to-stopped edge; `ball_was_moving` becomes "not stopped"; scores are kept |
| Turns.EndOfTickValid | main.py:352-358 | the rule keeps the player in {1, 2} |
| Turns.EndOfTickSettles | main.py:352-361 | a second frame at rest changes nothing: the hand-over is edge-triggered |
| Turns.RunFramesAlternates | main.py:349-361 | without scoring, after any run of frames the player is the starting one switched once per moving-to-stopped edge |
| Capture.Survivors | main.py:336-338 | the survivors are exactly the balls not in any hole |
| Capture.SurvivorsAppend | main.py:336-338 | the survivors of a concatenation are the survivors of each part in turn, so removal keeps the order of the remaining balls |
| Capture.Respot | main.py:339-342 | a pocketed cue ball comes back at rest on the diagonal from the centre, at the first place along it that is clear of every other ball: every earlier place is blocked |
| Capture.CapturePass | main.py:332-347 | the pass removes exactly the potted object balls; it keeps the player and `ball_was_moving`; the scored flag afterwards is its old value or-ed with "some ball dropped" |
| Capture.CaptureFrom | main.py:332-347 | the kept balls are the survivors in order; one ball is put back per pocketed cue ball, at rest on the diagonal; the current player's score rises by the number of object balls potted and the other's does not; the scored flag is set exactly when something dropped |
| Capture.CaptureFromClear | main.py:338-342 | balls put back stay clear of every ball still on the table |
| Capture.CapturePassRespots | main.py:338-342 | after the pass the survivors come first; every ball after them is a cue ball put back at rest on the diagonal, clear of every survivor |
| Capture.SurvivorsCount | main.py:336-338 | survivors plus potted object and cue balls make up all the balls |
| Capture.CapturePassKeepsCue | main.py:338-342 | the number of cue balls on the table is unchanged |
| Capture.CapturePassScores | main.py:343-346 | the total score rises by the object balls potted, all credited to the current player |
| Capture.CapturePassQuiet | main.py:336-347 | with no ball in a hole the pass changes nothing |
| Boundary.Advance | main.py:375-381 | `p` stays in [0, 1]; a valid direction stays valid; the direction turns to -1 only at 1 and to +1 only at 0; an in-range step moves `p` by `direction·delta`; a step past 1 clamps to 1 and turns to -1, a step below 0 clamps to 0 and turns to +1 |
| Boundary.IterateValid | main.py:375-381 | validity holds across any number of frames, for any step |
| Boundary.RisingLeg | main.py:375-378 | with step `1/n`, the first `n` frames from 0 climb by one step each |
| Boundary.FallingLeg | main.py:375-381 | with step `1/n`, the first `n` frames from 1 fall by one step each |
| Boundary.Turnarounds | main.py:375-381 | after `n + 1` frames from either end the parameter is at the other end, turned |
| Boundary.Period | main.py:375-381 | with step `1/n` the motion repeats every `2(n + 1)` frames |
| Boundary.GamePeriod | main.py:77 | over exact reals, a step of exactly 1/1000 gives a cycle of 2002 frames |
| Outcomes.Collect | main.py:332-335 | the first failing step is the result; with none, each value is in its place |
| Game.MotionStep | main.py:332-334 | one ball's move and edge pass keeps its kind and radius; it can fail only by dividing by zero or running out of fuel |
| Game.MotionStepSpeed | main.py:332-334 | the edges only turn a ball: its speed after the edge pass is its speed after `move_ball` |
| Game.MotionPass | main.py:332-334 | the motion pass over every ball keeps the number of balls when no step fails |
| Game.MotionPassFaults | main.py:332-334 | the motion pass fails only by running out of fuel or by dividing by zero, and a division by zero comes from an edge of zero length |
| Game.MotionPassKinds | main.py:332-334 | every ball keeps its kind and radius through the motion pass |
| Game.Frame | main.py:330-381 | a frame never adds balls; it advances the boundary parameter; too few polygon points fail; the `range` step error happens exactly when there are too few points; a division by zero comes only from a zero-length edge |
| Game.FrameKeepsCue | main.py:330-369 | a frame keeps the number of cue balls |
| Game.FrameScores | main.py:330-369 | every ball that leaves the table in a frame is one point for a player |
| Game.FrameValid | main.py:349-381 | a frame keeps the player in {1, 2} and the boundary state valid |
| Game.MotionStepAtRest | main.py:212-265 | a ball at rest that touches no edge comes through `move_ball` and the edge pass unchanged |
| Game.MotionPassAtRest | main.py:332-334 | balls at rest and clear of every edge come through the motion pass unchanged and without failure |
| Game.FrameAtRest | main.py:330-381 | a table at rest, with every ball clear of the edges, out of the holes and apart from the others, comes through a frame unchanged; only the turn state and the boundary parameter advance |
| Game.InitialTable | main.py:95-110 | the game starts with 22 balls, a valid player with no scores and no scored flag, and a valid boundary state |
| Game.InitialTableShape | main.py:95-110 | the game starts with 22 balls, exactly one cue ball, player 1 to play and `p` at 0 rising |

## Left out

- Rendering and the UI are left out: `draw`, `draw_polygon`'s drawing, `draw_score`, `PoolStick`, fonts and the display. They have no behaviour to state.
- Keyboard and mouse input are left out: `handle_ball_drag` and the event loop. This includes the guard that ignores shots while a ball moves, and the rotate and flip keys.
- Polygon construction is left out: `f`, `get_polygon_points` and `rotate_point`. They are cumulative sums of sines and cosines, rescaled to the screen. The polygon is an input sequence of points (`Game.Frame`'s `pts`).
- `handle_ball_polygon_overlap` is left out. Its look-ahead rescue needs the next frame's polygon, which comes from the same transcendental construction.
- Square roots are left out: lengths are supplied by the caller (`IsLength`, `IsSqrt`).
- Walls.PushOut: the source loops without bound. The model runs with explicit fuel and reports `OutOfFuel`. It does not claim that the source's loop terminates. `OutOfFuel` is returned only when every push count up to the fuel still touches the edge, so a failure is never spurious within the bound.
- Balls.Move: friction over exact reals never reaches zero (`Balls.FrictionNeverStops`). The stop test compares floating-point vectors, so the model takes "all balls stopped" as an input to `Turns.EndOfTick` and `Game.Frame`.
- Capture.CaptureFrom: capture works on a snapshot of the list. The source removes and appends inside `for ball in self.balls`, with two effects the model does not reproduce:
  - the ball after a pocketed one is skipped that frame;
  - an appended cue ball is visited again.

  A non-cue ball inside two holes at once makes the source's second `remove` raise. The model removes it once.
- Game.Frame: it runs all motion first, then all captures. The source does both per ball, so its free-position search sees later balls before they move.
- Boundary.GamePeriod: `p` and `delta_p` are exact reals here. The `2(n + 1)` cycle, with `p` resting two frames at each end, holds only for a step of exactly `1/n`. The source adds the floating-point 0.001, which is slightly more than 1/1000, so its `p` passes 1 on the thousandth frame and its cycle differs; floating-point rounding is not modelled.
- `draw_ball` is dead code that reads attributes the class never sets.
- The frame clock (`clock.tick(60)`) is left out.

=== FILE: ball_collisions.dfy ===
/**
  Ball against ball: `handle_ball_collision` (separation along the line of
  centres and the one-dimensional elastic exchange with the radius standing
  in for the mass) and the all-pairs pass over the ball list that follows
  the capture step in `run`.
 */
module BallCollisions {
  import opened Vectors
  import opened Outcomes
  import opened Balls

  /** `distance < r1 + r2`, squared (see `Vectors.LengthBelow`). */
  predicate Overlapping(b1: Ball, b2: Ball)
  {
    var s := b1.radius + b2.radius;
    0.0 < s && DistSq(b1.pos, b2.pos) < s * s
  }

  /** The new normal velocity of the first body in a one-dimensional elastic
      collision of masses `m1` and `m2` (main.py's `v1n_new`; `v2n_new` is the
      same with the roles swapped). */
  function ElasticNormal(m1: real, m2: real, u1: real, u2: real): real
    requires m1 + m2 != 0.0
  {
    u1 * (m1 - m2) / (m1 + m2) + u2 * 2.0 * m2 / (m1 + m2)
  }

  lemma Cancel(x: real, y: real, m: real)
    requires m != 0.0 && x * m == y * m
    ensures x == y
  {
    calc {
      x;
    ==
      (x * m) / m;
    ==
      (y * m) / m;
    ==
      y;
    }
  }

  lemma ElasticNumerator(m1: real, m2: real, u1: real, u2: real)
    requires m1 + m2 != 0.0
    ensures ElasticNormal(m1, m2, u1, u2) * (m1 + m2) == u1 * (m1 - m2) + 2.0 * m2 * u2
  {
    var m := m1 + m2;
    calc {
      ElasticNormal(m1, m2, u1, u2) * m;
    ==
      (u1 * (m1 - m2) / m) * m + (u2 * 2.0 * m2 / m) * m;
    ==
      u1 * (m1 - m2) + 2.0 * m2 * u2;
    }
  }

  /** The exchange conserves momentum and kinetic energy, reverses the
      relative velocity, and swaps the velocities of equal masses. */
  lemma ElasticExchange(m1: real, m2: real, u1: real, u2: real, w1: real, w2: real)
    requires m1 + m2 > 0.0
    requires w1 == ElasticNormal(m1, m2, u1, u2) && w2 == ElasticNormal(m2, m1, u2, u1)
    ensures m1 * w1 + m2 * w2 == m1 * u1 + m2 * u2
    ensures w1 - w2 == u2 - u1
    ensures m1 * (w1 * w1) + m2 * (w2 * w2) == m1 * (u1 * u1) + m2 * (u2 * u2)
    ensures m1 == m2 ==> w1 == u2 && w2 == u1
  {
    var m := m1 + m2;
    ElasticNumerator(m1, m2, u1, u2);
    ElasticNumerator(m2, m1, u2, u1);
    assert m2 + m1 == m;
    calc {
      (m1 * w1 + m2 * w2) * m;
    ==
      m1 * (w1 * m) + m2 * (w2 * m);
    ==
      m1 * (u1 * (m1 - m2) + 2.0 * m2 * u2) + m2 * (u2 * (m2 - m1) + 2.0 * m1 * u1);
    ==
      (m1 * u1 + m2 * u2) * m;
    }
    Cancel(m1 * w1 + m2 * w2, m1 * u1 + m2 * u2, m);
    calc {
      (w1 - w2) * m;
    ==
      w1 * m - w2 * m;
    ==
      (u1 * (m1 - m2) + 2.0 * m2 * u2) - (u2 * (m2 - m1) + 2.0 * m1 * u1);
    ==
      (u2 - u1) * m;
    }
    Cancel(w1 - w2, u2 - u1, m);
    var p := m1 * (w1 - u1);
    assert m2 * (w2 - u2) == -p;
    calc {
      m1 * (w1 * w1) + m2 * (w2 * w2) - (m1 * (u1 * u1) + m2 * (u2 * u2));
    ==
      m1 * (w1 - u1) * (w1 + u1) + m2 * (w2 - u2) * (w2 + u2);
    ==
      p * (w1 + u1) + (m2 * (w2 - u2)) * (w2 + u2);
    ==
      p * (w1 + u1) - p * (w2 + u2);
    ==
      p * ((w1 - w2) + (u1 - u2));
    ==
      p * 0.0;
    ==
      0.0;
    }
    if m1 == m2 {
      calc {
        w1 * m;
      ==
        u1 * (m1 - m2) + 2.0 * m2 * u2;
      ==
        u2 * m;
      }
      Cancel(w1, u2, m);
    }
  }

  /** The collision normal: the unit vector from the second centre to the first. */
  function Direction(b1: Ball, b2: Ball, dist: real): (n: Vec)
    requires IsLength(dist, Sub(b1.pos, b2.pos)) && dist > 0.0
    ensures IsUnit(n)
    ensures Scale(dist, n) == Sub(b1.pos, b2.pos)
  {
    NormalizedIsUnit(dist, Sub(b1.pos, b2.pos));
    var n := Scale(1.0 / dist, Sub(b1.pos, b2.pos));
    assert dist * (1.0 / dist) == 1.0;
    calc {
      Scale(dist, n);
      Vec(dist * (1.0 / dist) * (b1.pos.x - b2.pos.x), dist * (1.0 / dist) * (b1.pos.y - b2.pos.y));
      Sub(b1.pos, b2.pos);
    }
    n
  }

  /** The velocity update of `handle_ball_collision` on a unit normal `n`:
      each normal component takes its one-dimensional elastic value, each
      tangential component is kept. */
  function Exchange(m1: real, m2: real, v1: Vec, v2: Vec, n: Vec): (w: (Vec, Vec))
    requires m1 + m2 > 0.0 && IsUnit(n)
    ensures Dot(w.0, Tangent(n)) == Dot(v1, Tangent(n)) && Dot(w.1, Tangent(n)) == Dot(v2, Tangent(n))
  {
    var t := Tangent(n);
    var u1, u2 := Dot(v1, n), Dot(v2, n);
    ComponentsOfCombination(ElasticNormal(m1, m2, u1, u2), Dot(v1, t), n);
    ComponentsOfCombination(ElasticNormal(m2, m1, u2, u1), Dot(v2, t), n);
    (Add(Scale(ElasticNormal(m1, m2, u1, u2), n), Scale(Dot(v1, t), t)),
     Add(Scale(ElasticNormal(m2, m1, u2, u1), n), Scale(Dot(v2, t), t)))
  }

  /** The exchanged velocities, component by component. */
  lemma ExchangeComponents(m1: real, m2: real, v1: Vec, v2: Vec, n: Vec)
    requires m1 + m2 > 0.0 && IsUnit(n)
    ensures var (w1, w2) := Exchange(m1, m2, v1, v2, n);
      var t := Tangent(n);
      && Dot(w1, t) == Dot(v1, t)
      && Dot(w2, t) == Dot(v2, t)
      && Dot(w1, n) == ElasticNormal(m1, m2, Dot(v1, n), Dot(v2, n))
      && Dot(w2, n) == ElasticNormal(m2, m1, Dot(v2, n), Dot(v1, n))
  {
    var t := Tangent(n);
    ComponentsOfCombination(ElasticNormal(m1, m2, Dot(v1, n), Dot(v2, n)), Dot(v1, t), n);
    ComponentsOfCombination(ElasticNormal(m2, m1, Dot(v2, n), Dot(v1, n)), Dot(v2, t), n);
  }

  /** The exchange conserves momentum. */
  lemma ExchangeKeepsMomentum(m1: real, m2: real, v1: Vec, v2: Vec, n: Vec)
    requires m1 + m2 > 0.0 && IsUnit(n)
    ensures var (w1, w2) := Exchange(m1, m2, v1, v2, n);
      Add(Scale(m1, w1), Scale(m2, w2)) == Add(Scale(m1, v1), Scale(m2, v2))
  {
    var t := Tangent(n);
    var u1, u2 := Dot(v1, n), Dot(v2, n);
    var e1, e2 := ElasticNormal(m1, m2, u1, u2), ElasticNormal(m2, m1, u2, u1);
    var a1, a2 := Dot(v1, t), Dot(v2, t);
    ElasticExchange(m1, m2, u1, u2, e1, e2);
    Decompose(v1, n);
    Decompose(v2, n);
    CombineOnPair(m1, e1, a1, m2, e2, a2, n, t);
    CombineOnPair(m1, u1, a1, m2, u2, a2, n, t);
  }

  /** The exchange conserves kinetic energy. */
  lemma ExchangeKeepsEnergy(m1: real, m2: real, v1: Vec, v2: Vec, n: Vec)
    requires m1 + m2 > 0.0 && IsUnit(n)
    ensures var (w1, w2) := Exchange(m1, m2, v1, v2, n);
      m1 * LenSq(w1) + m2 * LenSq(w2) == m1 * LenSq(v1) + m2 * LenSq(v2)
  {
    var (w1, w2) := Exchange(m1, m2, v1, v2, n);
    var u1, u2 := Dot(v1, n), Dot(v2, n);
    var e1, e2 := ElasticNormal(m1, m2, u1, u2), ElasticNormal(m2, m1, u2, u1);
    ExchangeComponents(m1, m2, v1, v2, n);
    ElasticExchange(m1, m2, u1, u2, e1, e2);
    EnergyOnBasis(m1, m2, w1, w2, v1, v2, n, e1, e2, u1, u2);
  }

  /** When the tangential components are kept and the normal components keep
      their weighted sum of squares, the whole weighted sum of squared speeds
      is kept. */
  lemma EnergyOnBasis(m1: real, m2: real, w1: Vec, w2: Vec, v1: Vec, v2: Vec, n: Vec,
                      e1: real, e2: real, u1: real, u2: real)
    requires IsUnit(n)
    requires Dot(w1, n) == e1 && Dot(w2, n) == e2 && Dot(v1, n) == u1 && Dot(v2, n) == u2
    requires Dot(w1, Tangent(n)) == Dot(v1, Tangent(n)) && Dot(w2, Tangent(n)) == Dot(v2, Tangent(n))
    requires m1 * (e1 * e1) + m2 * (e2 * e2) == m1 * (u1 * u1) + m2 * (u2 * u2)
    ensures m1 * LenSq(w1) + m2 * LenSq(w2) == m1 * LenSq(v1) + m2 * LenSq(v2)
  {
    var a1, a2 := Dot(v1, Tangent(n)), Dot(v2, Tangent(n));
    LenSqOnBasis(w1, n, e1, a1);
    LenSqOnBasis(w2, n, e2, a2);
    LenSqOnBasis(v1, n, u1, a1);
    LenSqOnBasis(v2, n, u2, a2);
    MulSum(m1, LenSq(w1), e1 * e1, a1 * a1);
    MulSum(m2, LenSq(w2), e2 * e2, a2 * a2);
    MulSum(m1, LenSq(v1), u1 * u1, a1 * a1);
    MulSum(m2, LenSq(v2), u2 * u2, a2 * a2);
  }

  /** `m * x` distributes over a known split of `x`. */
  lemma MulSum(m: real, x: real, a: real, b: real)
    requires x == a + b
    ensures m * x == m * a + m * b
  {
  }

  /** Equal masses swap their normal components. */
  lemma ExchangeEqualMassesSwap(m: real, v1: Vec, v2: Vec, n: Vec)
    requires m > 0.0 && IsUnit(n)
    ensures var (w1, w2) := Exchange(m, m, v1, v2, n);
      Dot(w1, n) == Dot(v2, n) && Dot(w2, n) == Dot(v1, n)
  {
    ExchangeComponents(m, m, v1, v2, n);
    ElasticExchange(m, m, Dot(v1, n), Dot(v2, n), ElasticNormal(m, m, Dot(v1, n), Dot(v2, n)), ElasticNormal(m, m, Dot(v2, n), Dot(v1, n)));
  }

  /** The body of `handle_ball_collision` once it fires on distinct centres:
      push the centres apart along the normal by half the overlap each, then
      exchange the velocities with the radius as the mass. */
  function Resolve(b1: Ball, b2: Ball, dist: real): (c: (Ball, Ball))
    requires IsLength(dist, Sub(b1.pos, b2.pos)) && 0.0 < dist < b1.radius + b2.radius
    ensures c.0.radius == b1.radius && c.0.kind == b1.kind
    ensures c.1.radius == b2.radius && c.1.kind == b2.kind
    ensures Add(c.0.pos, c.1.pos) == Add(b1.pos, b2.pos)
    ensures (c.0.vel, c.1.vel) == Exchange(b1.radius, b2.radius, b1.vel, b2.vel, Direction(b1, b2, dist))
  {
    var n := Direction(b1, b2, dist);
    var shift := Scale((b1.radius + b2.radius - dist) / 2.0, n);
    var (w1, w2) := Exchange(b1.radius, b2.radius, b1.vel, b2.vel, n);
    (b1.(pos := Add(b1.pos, shift), vel := w1), b2.(pos := Sub(b2.pos, shift), vel := w2))
  }

  /** `r1 * v1 + r2 * v2`: momentum with the radius as the mass. */
  function PairMomentum(b1: Ball, b2: Ball): Vec
  {
    Add(Scale(b1.radius, b1.vel), Scale(b2.radius, b2.vel))
  }

  /** `r1 |v1|^2 + r2 |v2|^2`: twice the kinetic energy with the radius as the mass. */
  function PairEnergy(b1: Ball, b2: Ball): real
  {
    b1.radius * LenSq(b1.vel) + b2.radius * LenSq(b2.vel)
  }

  /** A firing collision moves the centres apart along the normal by the
      overlap, half each: their midpoint stays and they end exactly touching. */
  lemma ResolveSeparates(b1: Ball, b2: Ball, dist: real)
    requires IsLength(dist, Sub(b1.pos, b2.pos)) && 0.0 < dist < b1.radius + b2.radius
    ensures var (c1, c2) := Resolve(b1, b2, dist);
      var s := b1.radius + b2.radius;
      && Add(c1.pos, c2.pos) == Add(b1.pos, b2.pos)
      && Sub(c1.pos, c2.pos) == Scale(s, Direction(b1, b2, dist))
      && DistSq(c1.pos, c2.pos) == s * s
  {
    var (c1, c2) := Resolve(b1, b2, dist);
    var s := b1.radius + b2.radius;
    var n := Direction(b1, b2, dist);
    var h := (s - dist) / 2.0;
    assert Sub(c1.pos, c2.pos) == Scale(s, n) by {
      calc {
        Sub(c1.pos, c2.pos);
        Add(Sub(b1.pos, b2.pos), Scale(2.0 * h, n));
        Add(Scale(dist, n), Scale(s - dist, n));
        Scale(s, n);
      }
    }
    calc {
      DistSq(c1.pos, c2.pos);
      LenSq(Scale(s, n));
      { ScaleLenSq(s, n); }
      s * s * LenSq(n);
      s * s;
    }
  }

  /** The guards of `handle_ball_collision` in terms of the supplied distance. */
  lemma OverlapByLength(b1: Ball, b2: Ball, dist: real)
    requires IsLength(dist, Sub(b1.pos, b2.pos))
    ensures Overlapping(b1, b2) <==> dist < b1.radius + b2.radius
    ensures dist == 0.0 <==> b1.pos == b2.pos
  {
    LengthBelow(dist, Sub(b1.pos, b2.pos), b1.radius + b2.radius);
    LengthZero(dist, Sub(b1.pos, b2.pos));
    SubZero(b1.pos, b2.pos);
  }

  /** `handle_ball_collision`: nothing happens unless the balls overlap; two
      overlapping balls on the same centre cannot be normalised apart. */
  function Collide(b1: Ball, b2: Ball, dist: real): (res: Result<(Ball, Ball)>)
    requires IsLength(dist, Sub(b1.pos, b2.pos))
    ensures res.Err? ==> res.fault == ZeroLengthNormalize
    ensures res.Ok? ==>
      && res.value.0.radius == b1.radius && res.value.0.kind == b1.kind
      && res.value.1.radius == b2.radius && res.value.1.kind == b2.kind
  {
    if !(dist < b1.radius + b2.radius) then Ok((b1, b2))
    else if dist == 0.0 then Err(ZeroLengthNormalize)
    else Ok(Resolve(b1, b2, dist))
  }

  /** Two overlapping balls of equal radius on distinct centres swap the
      velocity components along the line of centres and keep the rest. */
  lemma CollideEqualRadiiSwap(b1: Ball, b2: Ball, dist: real)
    requires IsLength(dist, Sub(b1.pos, b2.pos))
    ensures 0.0 < dist < b1.radius + b2.radius && b1.radius == b2.radius ==>
      var n := Direction(b1, b2, dist);
      && Collide(b1, b2, dist).Ok?
      && Dot(Collide(b1, b2, dist).value.0.vel, n) == Dot(b2.vel, n)
      && Dot(Collide(b1, b2, dist).value.1.vel, n) == Dot(b1.vel, n)
      && Dot(Collide(b1, b2, dist).value.0.vel, Tangent(n)) == Dot(b1.vel, Tangent(n))
      && Dot(Collide(b1, b2, dist).value.1.vel, Tangent(n)) == Dot(b2.vel, Tangent(n))
  {
    if 0.0 < dist < b1.radius + b2.radius && b1.radius == b2.radius {
      ExchangeEqualMassesSwap(b1.radius, b1.vel, b2.vel, Direction(b1, b2, dist));
    }
  }

  /** Balls that do not overlap are left exactly as they are. */
  lemma CollideSkips(b1: Ball, b2: Ball, dist: real)
    requires IsLength(dist, Sub(b1.pos, b2.pos))
    ensures !Overlapping(b1, b2) ==> Collide(b1, b2, dist) == Ok((b1, b2))
  {
    OverlapByLength(b1, b2, dist);
  }

  /** The collision fails only on overlapping balls with the same centre ... */
  lemma CollideFailsOnlyOnSameCentre(b1: Ball, b2: Ball, dist: real)
    requires IsLength(dist, Sub(b1.pos, b2.pos))
    ensures Collide(b1, b2, dist).Err? ==> Overlapping(b1, b2) && b1.pos == b2.pos
  {
    OverlapByLength(b1, b2, dist);
  }

  /** ... and always fails on them. */
  lemma CollideFailsOnSameCentre(b1: Ball, b2: Ball, dist: real)
    requires IsLength(dist, Sub(b1.pos, b2.pos))
    ensures Overlapping(b1, b2) && b1.pos == b2.pos ==> Collide(b1, b2, dist).Err?
  {
    OverlapByLength(b1, b2, dist);
  }

  /** A collision keeps the midpoint of the centres. */
  lemma CollideKeepsMidpoint(b1: Ball, b2: Ball, dist: real)
    requires IsLength(dist, Sub(b1.pos, b2.pos))
    ensures Collide(b1, b2, dist).Ok? ==>
      Add(Collide(b1, b2, dist).value.0.pos, Collide(b1, b2, dist).value.1.pos) == Add(b1.pos, b2.pos)
  {
    if 0.0 < dist < b1.radius + b2.radius {
      ResolveSeparates(b1, b2, dist);
    }
  }

  /** A collision leaves overlapping balls exactly touching. */
  lemma CollideLeavesTouching(b1: Ball, b2: Ball, dist: real)
    requires IsLength(dist, Sub(b1.pos, b2.pos))
    ensures Overlapping(b1, b2) && Collide(b1, b2, dist).Ok? ==>
      DistSq(Collide(b1, b2, dist).value.0.pos, Collide(b1, b2, dist).value.1.pos)
        == (b1.radius + b2.radius) * (b1.radius + b2.radius)
  {
    OverlapByLength(b1, b2, dist);
    if 0.0 < dist < b1.radius + b2.radius {
      ResolveSeparates(b1, b2, dist);
    }
  }

  /** A collision conserves momentum, radius as mass. */
  lemma CollideKeepsMomentum(b1: Ball, b2: Ball, dist: real)
    requires IsLength(dist, Sub(b1.pos, b2.pos))
    ensures Collide(b1, b2, dist).Ok? ==>
      PairMomentum(Collide(b1, b2, dist).value.0, Collide(b1, b2, dist).value.1) == PairMomentum(b1, b2)
  {
    if 0.0 < dist < b1.radius + b2.radius {
      ExchangeKeepsMomentum(b1.radius, b2.radius, b1.vel, b2.vel, Direction(b1, b2, dist));
    }
  }

  /** A collision conserves kinetic energy, radius as mass. */
  lemma CollideKeepsEnergy(b1: Ball, b2: Ball, dist: real)
    requires IsLength(dist, Sub(b1.pos, b2.pos))
    ensures Collide(b1, b2, dist).Ok? ==>
      PairEnergy(Collide(b1, b2, dist).value.0, Collide(b1, b2, dist).value.1) == PairEnergy(b1, b2)
  {
    if 0.0 < dist < b1.radius + b2.radius {
      var n := Direction(b1, b2, dist);
      var (c1, c2) := Resolve(b1, b2, dist);
      var w := Exchange(b1.radius, b2.radius, b1.vel, b2.vel, n);
      assert c1.vel == w.0 && c2.vel == w.1;
      ExchangeKeepsEnergy(b1.radius, b2.radius, b1.vel, b2.vel, n);
    }
  }

  /** Two equal balls meeting head on along the line of centres trade
      velocities. */
  lemma HeadOnExchange(v: real)
    ensures Exchange(BallRadius, BallRadius, Vec(v, 0.0), Vec(-v, 0.0), Vec(-1.0, 0.0))
         == (Vec(-v, 0.0), Vec(v, 0.0))
  {
    assert ElasticNormal(BallRadius, BallRadius, -v, v) == v;
    assert ElasticNormal(BallRadius, BallRadius, v, -v) == -v;
  }

  // ---- The all-pairs pass ----

  function SumVec(vs: seq<Vec>): Vec
  {
    if vs == [] then Zero else Add(vs[0], SumVec(vs[1..]))
  }

  /** Replacing one summand changes the sum by the difference. */
  lemma {:induction false} SumVecUpdate(vs: seq<Vec>, i: nat, v: Vec)
    requires i < |vs|
    ensures SumVec(vs[i := v]) == Add(Sub(SumVec(vs), vs[i]), v)
    decreases |vs|
  {
    if i == 0 {
      assert vs[i := v][1..] == vs[1..];
    } else {
      assert vs[i := v][1..] == vs[1..][i - 1 := v];
      SumVecUpdate(vs[1..], i - 1, v);
    }
  }

  /** Total momentum of the table, radius as mass. */
  function Momentum(bs: seq<Ball>): Vec
  {
    SumVec(seq(|bs|, k requires 0 <= k < |bs| => Scale(bs[k].radius, bs[k].vel)))
  }

  /** Sum of the centres: a fixed multiple of the centroid. */
  function CentreSum(bs: seq<Ball>): Vec
  {
    SumVec(seq(|bs|, k requires 0 <= k < |bs| => bs[k].pos))
  }

  /** Colliding balls `i` and `j` in place keeps both totals. */
  lemma PairUpdateKeepsTotals(bs: seq<Ball>, i: nat, j: nat, c1: Ball, c2: Ball)
    requires i < j < |bs|
    requires PairMomentum(c1, c2) == PairMomentum(bs[i], bs[j])
    requires Add(c1.pos, c2.pos) == Add(bs[i].pos, bs[j].pos)
    ensures Momentum(bs[i := c1][j := c2]) == Momentum(bs)
    ensures CentreSum(bs[i := c1][j := c2]) == CentreSum(bs)
  {
    var cs := bs[i := c1][j := c2];
    var ms := seq(|bs|, k requires 0 <= k < |bs| => Scale(bs[k].radius, bs[k].vel));
    var ps := seq(|bs|, k requires 0 <= k < |bs| => bs[k].pos);
    var m1 := ms[i := Scale(c1.radius, c1.vel)];
    assert seq(|cs|, k requires 0 <= k < |cs| => Scale(cs[k].radius, cs[k].vel))
        == m1[j := Scale(c2.radius, c2.vel)];
    SumVecUpdate(ms, i, Scale(c1.radius, c1.vel));
    SumVecUpdate(m1, j, Scale(c2.radius, c2.vel));
    var p1 := ps[i := c1.pos];
    assert seq(|cs|, k requires 0 <= k < |cs| => cs[k].pos) == p1[j := c2.pos];
    SumVecUpdate(ps, i, c1.pos);
    SumVecUpdate(p1, j, c2.pos);
  }

  /** The pass `for i, ball1 in enumerate(balls): for ball2 in balls[i+1:]`
      from pair (i, j) on; each pair's distance is taken by `root`. */
  function CollideFrom(bs: seq<Ball>, i: nat, j: nat, root: real -> real): (res: Result<seq<Ball>>)
    requires IsSqrt(root)
    requires i <= |bs| && (i < |bs| ==> i < j <= |bs|)
    ensures res.Err? ==> res.fault == ZeroLengthNormalize
    ensures res.Ok? ==> |res.value| == |bs|
    ensures res.Ok? ==> forall k :: 0 <= k < |bs| ==>
      res.value[k].radius == bs[k].radius && res.value[k].kind == bs[k].kind
    ensures res.Ok? ==> Momentum(res.value) == Momentum(bs)
    ensures res.Ok? ==> CentreSum(res.value) == CentreSum(bs)
    decreases |bs| - i, |bs| - j
  {
    if i == |bs| then Ok(bs)
    else if j == |bs| then CollideFrom(bs, i + 1, i + 2, root)
    else
      RootIsLength(root, Sub(bs[i].pos, bs[j].pos));
      CollideKeepsMidpoint(bs[i], bs[j], root(DistSq(bs[i].pos, bs[j].pos)));
      CollideKeepsMomentum(bs[i], bs[j], root(DistSq(bs[i].pos, bs[j].pos)));
      match Collide(bs[i], bs[j], root(DistSq(bs[i].pos, bs[j].pos)))
      case Err(f) => Err(f)
      case Ok((c1, c2)) =>
        PairUpdateKeepsTotals(bs, i, j, c1, c2);
        CollideFrom(bs[i := c1][j := c2], i, j + 1, root)
  }

  /** The whole all-pairs pass. */
  function CollideAll(bs: seq<Ball>, root: real -> real): (res: Result<seq<Ball>>)
    requires IsSqrt(root)
    ensures res.Ok? ==> |res.value| == |bs|
    ensures res.Ok? ==> Momentum(res.value) == Momentum(bs)
    ensures res.Ok? ==> CentreSum(res.value) == CentreSum(bs)
  {
    if |bs| == 0 then Ok(bs) else CollideFrom(bs, 0, 1, root)
  }

  /** A table with no overlapping pair comes through the pass from pair
      (i, j) on untouched. */
  lemma {:induction false} CollideFromQuiet(bs: seq<Ball>, i: nat, j: nat, root: real -> real)
    requires IsSqrt(root)
    requires i <= |bs| && (i < |bs| ==> i < j <= |bs|)
    requires forall p, q :: 0 <= p < q < |bs| ==> !Overlapping(bs[p], bs[q])
    ensures CollideFrom(bs, i, j, root) == Ok(bs)
    decreases |bs| - i, |bs| - j
  {
    if i == |bs| {
    } else if j == |bs| {
      CollideFromQuiet(bs, i + 1, i + 2, root);
    } else {
      var dist := root(DistSq(bs[i].pos, bs[j].pos));
      RootIsLength(root, Sub(bs[i].pos, bs[j].pos));
      CollideSkips(bs[i], bs[j], dist);
      assert bs[i := bs[i]][j := bs[j]] == bs;
      CollideFromQuiet(bs, i, j + 1, root);
    }
  }

  /** The pairwise pass leaves a table with no overlapping pair exactly as it
      is: it neither fails nor moves a ball. */
  lemma CollideAllQuiet(bs: seq<Ball>, root: real -> real)
    requires IsSqrt(root)
    requires forall p, q :: 0 <= p < q < |bs| ==> !Overlapping(bs[p], bs[q])
    ensures CollideAll(bs, root) == Ok(bs)
  {
    if |bs| > 0 {
      CollideFromQuiet(bs, 0, 1, root);
    }
  }
}

=== FILE: balls.dfy ===
/**
  The table's bodies: balls (`Ball` in main.py) and pockets (`Hole`), the
  screen constants, and one integration step (`Ball.move` followed by the
  screen-edge test of `move_ball`).
 */
module Balls {
  import opened Vectors

  datatype Rgb = Rgb(r: int, g: int, b: int)

  /** The cue ball is told apart from the object balls by identity in the
      source; here it is a kind of its own. Object balls carry their colour. */
  datatype Kind = Cue | Object(colour: Rgb)

  datatype Ball = Ball(pos: Vec, vel: Vec, radius: real, kind: Kind)

  datatype Hole = Hole(pos: Vec, radius: real)

  const Width: real := 1024.0
  const Height: real := 1024.0
  const BallRadius: real := 10.0
  const HoleRadius: real := 12.0
  const Friction: real := 0.98

  /** A fresh ball: at rest, standard radius. */
  function NewBall(pos: Vec, kind: Kind): (b: Ball)
    ensures b.vel == Zero && b.radius == BallRadius
    ensures b.pos == pos && b.kind == kind
  {
    Ball(pos, Zero, BallRadius, kind)
  }

  /** The test `ball.pos.x - ball.radius <= 0 or ball.pos.x + ball.radius >= WIDTH`. */
  predicate AtSideEdge(x: real, radius: real)
  {
    x - radius <= 0.0 || x + radius >= Width
  }

  /** The same test against the top and bottom of the screen. */
  predicate AtTopOrBottomEdge(y: real, radius: real)
  {
    y - radius <= 0.0 || y + radius >= Height
  }

  /** One tick of motion: advance by the velocity, apply friction, then
      reverse each velocity component whose screen edge the ball touches at
      its new position. */
  function Move(b: Ball): (m: Ball)
    ensures m.pos == Add(b.pos, b.vel)
    ensures m.radius == b.radius && m.kind == b.kind
    ensures m.vel.x * m.vel.x == Friction * Friction * (b.vel.x * b.vel.x)
    ensures m.vel.y * m.vel.y == Friction * Friction * (b.vel.y * b.vel.y)
    ensures b.vel.x != 0.0 ==> (m.vel.x * b.vel.x < 0.0 <==> AtSideEdge(m.pos.x, m.radius))
    ensures b.vel.y != 0.0 ==> (m.vel.y * b.vel.y < 0.0 <==> AtTopOrBottomEdge(m.pos.y, m.radius))
  {
    var pos := Add(b.pos, b.vel);
    var vel := Scale(Friction, b.vel);
    var vx := if AtSideEdge(pos.x, b.radius) then -vel.x else vel.x;
    var vy := if AtTopOrBottomEdge(pos.y, b.radius) then -vel.y else vel.y;
    FrictionKeepsSign(b.vel.x);
    FrictionKeepsSign(b.vel.y);
    Ball(pos, Vec(vx, vy), b.radius, b.kind)
  }

  /** Friction scales a component by a positive factor, so its sign survives. */
  lemma FrictionKeepsSign(v: real)
    ensures v != 0.0 ==> (Friction * v) * v > 0.0 && -(Friction * v) * v < 0.0
    ensures (Friction * v) * (Friction * v) == Friction * Friction * (v * v)
    ensures -(Friction * v) * -(Friction * v) == Friction * Friction * (v * v)
  {
    if v != 0.0 {
      calc {
        (Friction * v) * v;
      ==
        Friction * (v * v);
      >
        0.0;
      }
    }
  }

  /** Over exact reals friction never brings a moving ball to rest: the
      source's "all balls stopped" test is reached only through floating-point
      underflow, so the model takes it as an input. */
  lemma FrictionNeverStops(b: Ball)
    requires b.vel != Zero
    ensures Move(b).vel != Zero
  {
    var m := Move(b);
    if b.vel.x != 0.0 {
      assert m.vel.x * m.vel.x > 0.0;
    } else {
      assert m.vel.y * m.vel.y > 0.0;
    }
  }
}

=== FILE: boundary.dfy ===
/**
  The boundary parameter: every frame `p` moves by `direction * delta_p` and
  is clamped to [0, 1], the direction flipping at the clamp. The polygon
  shape drawn each frame is a function of `p`, so this is what makes the
  table breathe.
 */
module Boundary {

  datatype Oscillator = Oscillator(p: real, direction: int)

  /** `self.delta_p`. */
  const DeltaP: real := 0.001

  /** `p = 0.0`, `direction = 1` at start-up. */
  const Start: Oscillator := Oscillator(0.0, 1)

  predicate Valid(o: Oscillator)
  {
    0.0 <= o.p <= 1.0 && (o.direction == 1 || o.direction == -1)
  }

  /** One frame's update of `p` and `direction`. */
  function Advance(o: Oscillator, delta: real): (n: Oscillator)
    ensures 0.0 <= n.p <= 1.0
    ensures (o.direction == 1 || o.direction == -1) ==> Valid(n)
    ensures n.direction == -1 && o.direction != -1 ==> n.p == 1.0
    ensures n.direction == 1 && o.direction != 1 ==> n.p == 0.0
    ensures 0.0 <= o.p + o.direction as real * delta <= 1.0 ==>
      n == Oscillator(o.p + o.direction as real * delta, o.direction)
    ensures o.p + o.direction as real * delta > 1.0 ==> n == Oscillator(1.0, -1)
    ensures o.p + o.direction as real * delta < 0.0 ==> n == Oscillator(0.0, 1)
  {
    var p := o.p + o.direction as real * delta;
    if p > 1.0 then Oscillator(1.0, -1)
    else if p < 0.0 then Oscillator(0.0, 1)
    else Oscillator(p, o.direction)
  }

  /** `k` frames of `Advance`. */
  function Iterate(o: Oscillator, k: nat, delta: real): Oscillator
  {
    if k == 0 then o else Advance(Iterate(o, k - 1, delta), delta)
  }

  /** Validity is an invariant of the update, whatever the step size. */
  lemma {:induction false} IterateValid(o: Oscillator, k: nat, delta: real)
    requires Valid(o)
    ensures Valid(Iterate(o, k, delta))
  {
    if k > 0 {
      IterateValid(o, k - 1, delta);
    }
  }

  /** Running `a` frames and then `b` more is running `a + b`. */
  lemma {:induction false} IterateAdd(o: Oscillator, a: nat, b: nat, delta: real)
    ensures Iterate(Iterate(o, a, delta), b, delta) == Iterate(o, a + b, delta)
  {
    if b > 0 {
      IterateAdd(o, a, b - 1, delta);
    }
  }

  /** With a step of `1/n`, the first `n` frames from 0 climb by one step each. */
  lemma {:induction false} RisingLeg(n: nat, delta: real, k: nat)
    requires 0.0 < delta && n as real * delta == 1.0 && k <= n
    ensures Iterate(Oscillator(0.0, 1), k, delta) == Oscillator(k as real * delta, 1)
  {
    if k > 0 {
      RisingLeg(n, delta, k - 1);
      StepsWithin(n, delta, k);
    }
  }

  /** With a step of `1/n`, the first `n` frames from 1 descend by one step each. */
  lemma {:induction false} FallingLeg(n: nat, delta: real, k: nat)
    requires 0.0 < delta && n as real * delta == 1.0 && k <= n
    ensures Iterate(Oscillator(1.0, -1), k, delta) == Oscillator(1.0 - k as real * delta, -1)
  {
    if k > 0 {
      FallingLeg(n, delta, k - 1);
      StepsWithin(n, delta, k);
    }
  }

  lemma StepsWithin(n: nat, delta: real, k: nat)
    requires 0.0 < delta && n as real * delta == 1.0 && 0 < k <= n
    ensures (k - 1) as real * delta + delta == k as real * delta
    ensures 0.0 <= k as real * delta <= 1.0
  {
    assert k as real * delta <= n as real * delta;
  }

  /** At the top the parameter stays at 1 for one more frame, during which the
      direction turns; likewise at the bottom. */
  lemma Turnarounds(n: nat, delta: real)
    requires 0.0 < delta && n as real * delta == 1.0
    ensures Iterate(Oscillator(0.0, 1), n + 1, delta) == Oscillator(1.0, -1)
    ensures Iterate(Oscillator(1.0, -1), n + 1, delta) == Oscillator(0.0, 1)
  {
    RisingLeg(n, delta, n);
    FallingLeg(n, delta, n);
  }

  /** With a step of `1/n` the motion is periodic with period `2(n + 1)` frames. */
  lemma Period(n: nat, delta: real)
    requires 0.0 < delta && n as real * delta == 1.0
    ensures Iterate(Start, 2 * (n + 1), delta) == Start
  {
    Turnarounds(n, delta);
    IterateAdd(Start, n + 1, n + 1, delta);
  }

  /** Over exact reals, the game's step read as exactly 1/1000 gives a cycle
      of 2002 frames (the floating-point step of the program is not modelled). */
  lemma GamePeriod()
    ensures Iterate(Start, 2002, DeltaP) == Start
  {
    Period(1000, DeltaP);
  }
}

=== FILE: capture.dfy ===
/**
  The capture block of `run`: every ball whose centre lies in a hole leaves
  the table. A pocketed cue ball comes back at rest on the first free place
  of the diagonal from the table centre and is appended at the end of the
  list; a pocketed object ball earns the current player a point. Any capture
  marks the shot as having scored.
 */
module Capture {
  import opened Vectors
  import opened Balls
  import opened Pockets
  import opened Respawn
  import opened Turns

  /** The balls not in any hole, in their original order. */
  function Survivors(balls: seq<Ball>, holes: seq<Hole>): (s: seq<Ball>)
    ensures |s| <= |balls|
    ensures forall b :: b in s <==> b in balls && !Captured(b, holes)
    decreases |balls|
  {
    if balls == [] then []
    else (if Captured(balls[0], holes) then [] else [balls[0]]) + Survivors(balls[1..], holes)
  }

  /** Filtering distributes over concatenation, so the survivors keep the
      order they had in the list. */
  lemma {:induction false} SurvivorsAppend(x: seq<Ball>, y: seq<Ball>, holes: seq<Hole>)
    ensures Survivors(x + y, holes) == Survivors(x, holes) + Survivors(y, holes)
    decreases |x|
  {
    if x == [] {
      assert x + y == y;
    } else {
      assert (x + y)[0] == x[0];
      assert (x + y)[1..] == x[1..] + y;
      SurvivorsAppend(x[1..], y, holes);
    }
  }

  /** The object balls that drop. */
  function PottedObjects(balls: seq<Ball>, holes: seq<Hole>): nat
    decreases |balls|
  {
    if balls == [] then 0
    else (if Captured(balls[0], holes) && balls[0].kind.Object? then 1 else 0)
         + PottedObjects(balls[1..], holes)
  }

  /** The cue balls that drop. */
  function PottedCues(balls: seq<Ball>, holes: seq<Hole>): nat
    decreases |balls|
  {
    if balls == [] then 0
    else (if Captured(balls[0], holes) && balls[0].kind == Cue then 1 else 0)
         + PottedCues(balls[1..], holes)
  }

  function CueCount(balls: seq<Ball>): nat
    decreases |balls|
  {
    if balls == [] then 0
    else (if balls[0].kind == Cue then 1 else 0) + CueCount(balls[1..])
  }

  /** Some ball drops. */
  predicate AnyCaptured(balls: seq<Ball>, holes: seq<Hole>)
  {
    exists i :: 0 <= i < |balls| && Captured(balls[i], holes)
  }

  /** A cue ball put back: at rest, somewhere on the diagonal the search walks. */
  ghost predicate Respotted(b: Ball)
  {
    b.kind == Cue && b.vel == Zero && exists k: nat :: b.pos == Candidate(k)
  }

  /** A pocketed cue ball, moved to the free place among `others` and stopped. */
  function Respot(b: Ball, others: seq<Ball>): (c: Ball)
    requires b.kind == Cue
    ensures Respotted(c) && c.radius == b.radius
    ensures forall i :: 0 <= i < |others| ==> !Blocks(others[i], c.pos)
    ensures exists k: nat :: c.pos == Candidate(k) && forall j :: 0 <= j < k ==> Blocked(others, Candidate(j))
  {
    b.(pos := FreePosition(others), vel := Zero)
  }

  /** The pass part-way through: the balls kept so far, the cue balls put
      back so far (they go to the end of the list), and the turn state. */
  datatype Sweep = Sweep(kept: seq<Ball>, respawned: seq<Ball>, turn: TurnState)

  /** The capture block over the balls still to be looked at, `rest`. The
      free place for a pocketed cue ball is searched among every ball still
      on the table: those kept, those not yet looked at, and those put back. */
  function CaptureFrom(kept: seq<Ball>, rest: seq<Ball>, respawned: seq<Ball>, holes: seq<Hole>,
                       turn: TurnState): (out: Sweep)
    ensures out.kept == kept + Survivors(rest, holes)
    ensures |out.respawned| == |respawned| + PottedCues(rest, holes)
    ensures out.respawned[..|respawned|] == respawned
    ensures forall i :: |respawned| <= i < |out.respawned| ==> Respotted(out.respawned[i])
    ensures out.turn.current == turn.current && out.turn.wasMoving == turn.wasMoving
    ensures Score(out.turn, turn.current) == Score(turn, turn.current) + PottedObjects(rest, holes)
    ensures Score(out.turn, Toggle(turn.current)) == Score(turn, Toggle(turn.current))
    ensures out.turn.scored <==> turn.scored || AnyCaptured(rest, holes)
    decreases |rest|
  {
    if rest == [] then Sweep(kept, respawned, turn)
    else
      var b := rest[0];
      assert forall i :: 1 <= i < |rest| ==> rest[i] == rest[1..][i - 1];
      assert Captured(b, holes) ==> AnyCaptured(rest, holes);
      if !Captured(b, holes) then
        assert kept + [b] + Survivors(rest[1..], holes) == kept + Survivors(rest, holes);
        CaptureFrom(kept + [b], rest[1..], respawned, holes, turn)
      else if b.kind == Cue then
        var c := Respot(b, kept + rest[1..] + respawned);
        var out := CaptureFrom(kept, rest[1..], respawned + [c], holes, AwardCapture(turn, true));
        assert out.respawned[..|respawned|] == (respawned + [c])[..|respawned|];
        out
      else
        CaptureFrom(kept, rest[1..], respawned, holes, AwardCapture(turn, false))
  }

  /** The whole capture block: the surviving balls in order, then the cue
      balls put back, and the turn state after the scoring. */
  function CapturePass(balls: seq<Ball>, holes: seq<Hole>, turn: TurnState): (res: (seq<Ball>, TurnState))
    ensures |res.0| + PottedObjects(balls, holes) == |balls|
    ensures res.1.current == turn.current && res.1.wasMoving == turn.wasMoving
    ensures res.1.scored <==> turn.scored || AnyCaptured(balls, holes)
  {
    var out := CaptureFrom([], balls, [], holes, turn);
    SurvivorsCount(balls, holes);
    (out.kept + out.respawned, out.turn)
  }

  /** Every ball put back is clear of every ball in `pool`. */
  predicate RespawnClear(respawned: seq<Ball>, pool: seq<Ball>)
  {
    forall r, b :: r in respawned && b in pool ==> !Blocks(b, r.pos)
  }

  /** The balls put back stay clear of the balls that stay on the table: the
      search avoided everything still on the table, and the pass only ever
      takes balls away from it. */
  lemma {:induction false} CaptureFromClear(kept: seq<Ball>, rest: seq<Ball>, respawned: seq<Ball>,
                                            holes: seq<Hole>, turn: TurnState)
    requires RespawnClear(respawned, kept + rest)
    ensures RespawnClear(CaptureFrom(kept, rest, respawned, holes, turn).respawned,
                         CaptureFrom(kept, rest, respawned, holes, turn).kept)
    decreases |rest|
  {
    if rest != [] {
      var b := rest[0];
      assert rest == [b] + rest[1..];
      assert forall x :: x in kept + rest[1..] ==> x in kept + rest;
      if !Captured(b, holes) {
        assert kept + [b] + rest[1..] == kept + rest;
        CaptureFromClear(kept + [b], rest[1..], respawned, holes, turn);
      } else if b.kind == Cue {
        var others := kept + rest[1..] + respawned;
        var c := Respot(b, others);
        forall r, x | r in respawned + [c] && x in kept + rest[1..]
          ensures !Blocks(x, r.pos)
        {
          if r == c {
            var j :| 0 <= j < |kept + rest[1..]| && (kept + rest[1..])[j] == x;
            assert others[j] == x;
          }
        }
        CaptureFromClear(kept, rest[1..], respawned + [c], holes, AwardCapture(turn, true));
      } else {
        CaptureFromClear(kept, rest[1..], respawned, holes, AwardCapture(turn, false));
      }
    }
  }

  /** A cue-ball scratch: every ball after the survivors is a cue ball put
      back at rest on the diagonal from the centre, and none of the balls
      left on the table is within twice its radius of it. */
  lemma CapturePassRespots(balls: seq<Ball>, holes: seq<Hole>, turn: TurnState)
    ensures var after := CapturePass(balls, holes, turn).0;
      var n := |Survivors(balls, holes)|;
      && n <= |after|
      && after[..n] == Survivors(balls, holes)
      && (forall i :: n <= i < |after| ==> Respotted(after[i]))
      && (forall i, j :: n <= i < |after| && 0 <= j < n ==> !Blocks(after[j], after[i].pos))
  {
    var out := CaptureFrom([], balls, [], holes, turn);
    assert [] + balls == balls;
    CaptureFromClear([], balls, [], holes, turn);
    var after := out.kept + out.respawned;
    assert after[..|out.kept|] == out.kept;
    forall i, j | |out.kept| <= i < |after| && 0 <= j < |out.kept|
      ensures !Blocks(after[j], after[i].pos)
    {
      assert after[i] in out.respawned && after[j] in out.kept;
    }
  }

  lemma {:induction false} SurvivorsCount(balls: seq<Ball>, holes: seq<Hole>)
    ensures |Survivors(balls, holes)| + PottedObjects(balls, holes) + PottedCues(balls, holes) == |balls|
    decreases |balls|
  {
    if balls != [] {
      SurvivorsCount(balls[1..], holes);
    }
  }

  /** The number of cue balls on the table never changes: one dropped is one
      put back. */
  lemma CapturePassKeepsCue(balls: seq<Ball>, holes: seq<Hole>, turn: TurnState)
    ensures CueCount(CapturePass(balls, holes, turn).0) == CueCount(balls)
  {
    var out := CaptureFrom([], balls, [], holes, turn);
    SurvivorCues(balls, holes);
    CueCountAppend(out.kept, out.respawned);
    AllCues(out.respawned);
  }

  lemma {:induction false} SurvivorCues(balls: seq<Ball>, holes: seq<Hole>)
    ensures CueCount(Survivors(balls, holes)) + PottedCues(balls, holes) == CueCount(balls)
    decreases |balls|
  {
    if balls != [] {
      SurvivorCues(balls[1..], holes);
      var head := if Captured(balls[0], holes) then [] else [balls[0]];
      CueCountAppend(head, Survivors(balls[1..], holes));
    }
  }

  lemma {:induction false} CueCountAppend(a: seq<Ball>, b: seq<Ball>)
    ensures CueCount(a + b) == CueCount(a) + CueCount(b)
    decreases |a|
  {
    if a != [] {
      assert (a + b)[0] == a[0];
      assert (a + b)[1..] == a[1..] + b;
      CueCountAppend(a[1..], b);
    } else {
      assert a + b == b;
    }
  }

  lemma {:induction false} AllCues(bs: seq<Ball>)
    requires forall i :: 0 <= i < |bs| ==> bs[i].kind == Cue
    ensures CueCount(bs) == |bs|
    decreases |bs|
  {
    if bs != [] {
      AllCues(bs[1..]);
    }
  }

  /** Each object ball that drops is one point for the current player, and
      the other player's score does not move. */
  lemma CapturePassScores(balls: seq<Ball>, holes: seq<Hole>, turn: TurnState)
    ensures var t := CapturePass(balls, holes, turn).1;
      && t.score1 + t.score2 == turn.score1 + turn.score2 + PottedObjects(balls, holes)
      && Score(t, turn.current) == Score(turn, turn.current) + PottedObjects(balls, holes)
      && Score(t, Toggle(turn.current)) == Score(turn, Toggle(turn.current))
  {
  }

  /** When no ball is in a hole the pass changes nothing. */
  lemma CapturePassQuiet(balls: seq<Ball>, holes: seq<Hole>, turn: TurnState)
    requires !AnyCaptured(balls, holes)
    ensures CapturePass(balls, holes, turn) == (balls, turn)
  {
    var out := CaptureFrom([], balls, [], holes, turn);
    NoneCaptured(balls, holes);
    assert out.kept == balls by {
      assert [] + balls == balls;
    }
    assert out.respawned == [];
    assert out.turn.score1 == turn.score1 && out.turn.score2 == turn.score2 by {
      QuietScores(turn, out.turn);
    }
    assert out.turn.scored == turn.scored;
    assert out.turn == turn;
    assert out.kept + out.respawned == balls;
  }

  /** Two states with the same player whose counters both agree under
      `Score` and `Toggle` have the same scores. */
  lemma QuietScores(s: TurnState, t: TurnState)
    requires Score(t, s.current) == Score(s, s.current)
    requires Score(t, Toggle(s.current)) == Score(s, Toggle(s.current))
    ensures t.score1 == s.score1 && t.score2 == s.score2
  {
  }

  lemma {:induction false} NoneCaptured(balls: seq<Ball>, holes: seq<Hole>)
    requires !AnyCaptured(balls, holes)
    ensures Survivors(balls, holes) == balls
    ensures PottedCues(balls, holes) == 0 && PottedObjects(balls, holes) == 0
    decreases |balls|
  {
    if balls != [] {
      assert !Captured(balls[0], holes);
      assert forall i :: 1 <= i < |balls| ==> balls[i] == balls[1..][i - 1];
      NoneCaptured(balls[1..], holes);
    }
  }
}

=== FILE: game.dfy ===
/**
  One frame of `run` without its drawing and input handling: every ball
  moves and bounces off the table's edges, pocketed balls are taken off, the
  turn rule looks at whether everything has stopped, the balls collide
  pairwise, and the boundary parameter advances.
 */
module Game {
  import opened Vectors
  import opened Outcomes
  import opened Balls
  import opened Walls
  import opened BallCollisions
  import opened Pockets
  import opened Capture
  import opened Turns
  import opened Boundary
  import opened Rack

  /** The state that survives from frame to frame. */
  datatype Table = Table(balls: seq<Ball>, turn: TurnState, osc: Oscillator)

  /** The state at start-up: the rack, player 1 to play, `p` at 0 rising. */
  function InitialTable(): (t: Table)
    ensures Turns.Valid(t.turn) && Boundary.Valid(t.osc) && !t.turn.scored
    ensures t.turn.score1 == 0 && t.turn.score2 == 0
    ensures |t.balls| == 22
  {
    Table(SetupBalls(), Turns.Initial, Boundary.Start)
  }

  /** `move_ball` then `handle_ball_polygon_collision` for one ball. */
  function MotionStep(b: Ball, pts: seq<Vec>, root: real -> real, fuel: nat): (res: Result<Ball>)
    requires IsSqrt(root)
    ensures res.Ok? ==> res.value.kind == b.kind && res.value.radius == b.radius
    ensures res.Err? ==> res.fault == ZeroDivision || res.fault == OutOfFuel
  {
    WallPass(Move(b), pts, 0, root, fuel)
  }

  /** The edges only turn a ball's velocity: its speed is the speed after
      friction and the screen-edge flips. */
  lemma MotionStepSpeed(b: Ball, pts: seq<Vec>, root: real -> real, fuel: nat)
    requires IsSqrt(root)
    ensures MotionStep(b, pts, root, fuel).Ok? ==>
      LenSq(MotionStep(b, pts, root, fuel).value.vel) == LenSq(Move(b).vel)
  {
  }

  /** The motion step of every ball, as the outcomes the loop meets in order. */
  function MotionSteps(bs: seq<Ball>, pts: seq<Vec>, root: real -> real, fuel: nat): (rs: seq<Result<Ball>>)
    requires IsSqrt(root)
    ensures |rs| == |bs|
    ensures forall k :: 0 <= k < |bs| ==> rs[k] == MotionStep(bs[k], pts, root, fuel)
  {
    seq(|bs|, k requires 0 <= k < |bs| => MotionStep(bs[k], pts, root, fuel))
  }

  /** The motion half of the per-ball loop, over every ball: the first
      ball whose step fails stops the frame; otherwise every ball is replaced
      by its step's result, in place. */
  function MotionPass(bs: seq<Ball>, pts: seq<Vec>, root: real -> real, fuel: nat): (res: Result<seq<Ball>>)
    requires IsSqrt(root)
    ensures res.Ok? ==> |res.value| == |bs|
  {
    Collect(MotionSteps(bs, pts, root, fuel))
  }

  /** The motion pass fails only as one ball's step does: by running out of
      fuel, or by dividing by zero on a zero-length edge. */
  lemma MotionPassFaults(bs: seq<Ball>, pts: seq<Vec>, root: real -> real, fuel: nat)
    requires IsSqrt(root)
    ensures MotionPass(bs, pts, root, fuel).Err? ==>
      var f := MotionPass(bs, pts, root, fuel).fault;
      && (f == ZeroDivision || f == OutOfFuel)
      && (f == ZeroDivision ==> exists j :: 0 <= j < |pts| && pts[j] == EdgeEnd(pts, j))
  {
    var rs := MotionSteps(bs, pts, root, fuel);
    var res := Collect(rs);
    if res.Err? {
      var k :| 0 <= k < |rs| && rs[k] == Err(res.fault) && forall j :: 0 <= j < k ==> rs[j].Ok?;
      assert rs[k] == WallPass(Move(bs[k]), pts, 0, root, fuel);
    }
  }

  /** Each ball keeps its kind and radius through the motion pass. */
  lemma MotionPassKinds(bs: seq<Ball>, pts: seq<Vec>, root: real -> real, fuel: nat)
    requires IsSqrt(root)
    ensures MotionPass(bs, pts, root, fuel).Ok? ==> forall k :: 0 <= k < |bs| ==>
      MotionPass(bs, pts, root, fuel).value[k].kind == bs[k].kind &&
      MotionPass(bs, pts, root, fuel).value[k].radius == bs[k].radius
  {
    var rs := MotionSteps(bs, pts, root, fuel);
    var res := Collect(rs);
    if res.Ok? {
      forall k | 0 <= k < |bs|
        ensures res.value[k].kind == bs[k].kind && res.value[k].radius == bs[k].radius
      {
        assert rs[k] == Ok(res.value[k]);
      }
    }
  }

  /** One frame. `pts` is the table polygon at the current parameter (its
      construction is not modelled), from which the holes are placed; the
      stop test is given as `allStopped`; `root` supplies the square roots
      and `fuel` bounds the push-out loops. */
  function Frame(t: Table, pts: seq<Vec>, allStopped: bool, root: real -> real, fuel: nat): (res: Result<Table>)
    requires IsSqrt(root)
    ensures res.Ok? ==> |res.value.balls| <= |t.balls|
    ensures res.Ok? ==> res.value.osc == Advance(t.osc, DeltaP)
    ensures |pts| < NumHoles ==> res.Err?
    ensures res.Err? ==> res.fault != ZeroDivision || exists j :: 0 <= j < |pts| && pts[j] == EdgeEnd(pts, j)
    ensures res == Err(ZeroRangeStep) <==> |pts| < NumHoles
  {
    match HolesFromPoints(pts, NumHoles)
    case Err(f) => Err(f)
    case Ok(holes) =>
      MotionPassFaults(t.balls, pts, root, fuel);
      match MotionPass(t.balls, pts, root, fuel)
      case Err(f) => Err(f)
      case Ok(moved) =>
        var (kept, turn) := CapturePass(moved, holes, t.turn);
        match CollideAll(kept, root)
        case Err(f) => Err(f)
        case Ok(collided) => Ok(Table(collided, EndOfTick(turn, allStopped), Advance(t.osc, DeltaP)))
  }

  /** Two lists with the same kinds position by position have as many cue balls. */
  lemma {:induction false} CueCountByKinds(a: seq<Ball>, b: seq<Ball>)
    requires |a| == |b| && forall k :: 0 <= k < |a| ==> a[k].kind == b[k].kind
    ensures CueCount(a) == CueCount(b)
    decreases |a|
  {
    if a != [] {
      CueCountByKinds(a[1..], b[1..]);
    }
  }

  /** The pairwise pass keeps every ball's kind in place. */
  lemma CollideAllKinds(bs: seq<Ball>, root: real -> real)
    requires IsSqrt(root)
    ensures CollideAll(bs, root).Ok? ==>
      forall k :: 0 <= k < |bs| ==> CollideAll(bs, root).value[k].kind == bs[k].kind
  {
  }

  /** A frame never changes the number of cue balls on the table. */
  lemma FrameKeepsCue(t: Table, pts: seq<Vec>, allStopped: bool, root: real -> real, fuel: nat)
    requires IsSqrt(root)
    ensures Frame(t, pts, allStopped, root, fuel).Ok? ==>
      CueCount(Frame(t, pts, allStopped, root, fuel).value.balls) == CueCount(t.balls)
  {
    var res := Frame(t, pts, allStopped, root, fuel);
    if res.Ok? {
      var holes := HolesFromPoints(pts, NumHoles).value;
      var moved := MotionPass(t.balls, pts, root, fuel).value;
      MotionPassKinds(t.balls, pts, root, fuel);
      CueCountByKinds(t.balls, moved);
      var kept := CapturePass(moved, holes, t.turn).0;
      CapturePassKeepsCue(moved, holes, t.turn);
      CollideAllKinds(kept, root);
      CueCountByKinds(kept, res.value.balls);
    }
  }

  /** Every ball that leaves the table in a frame is one point for a player. */
  lemma FrameScores(t: Table, pts: seq<Vec>, allStopped: bool, root: real -> real, fuel: nat)
    requires IsSqrt(root)
    ensures Frame(t, pts, allStopped, root, fuel).Ok? ==>
      var u := Frame(t, pts, allStopped, root, fuel).value;
      u.turn.score1 + u.turn.score2 + |u.balls| == t.turn.score1 + t.turn.score2 + |t.balls|
  {
    var res := Frame(t, pts, allStopped, root, fuel);
    if res.Ok? {
      var holes := HolesFromPoints(pts, NumHoles).value;
      var moved := MotionPass(t.balls, pts, root, fuel).value;
      var captured := CapturePass(moved, holes, t.turn);
      var collided := CollideAll(captured.0, root).value;
      assert res.value == Table(collided, EndOfTick(captured.1, allStopped), Advance(t.osc, DeltaP));
      CapturePassScores(moved, holes, t.turn);
    }
  }

  /** A frame keeps the player and the boundary parameter valid. */
  lemma FrameValid(t: Table, pts: seq<Vec>, allStopped: bool, root: real -> real, fuel: nat)
    requires IsSqrt(root)
    requires Turns.Valid(t.turn) && Boundary.Valid(t.osc)
    ensures Frame(t, pts, allStopped, root, fuel).Ok? ==>
      var u := Frame(t, pts, allStopped, root, fuel).value;
      Turns.Valid(u.turn) && Boundary.Valid(u.osc)
  {
    var res := Frame(t, pts, allStopped, root, fuel);
    if res.Ok? {
      var holes := HolesFromPoints(pts, NumHoles).value;
      var moved := MotionPass(t.balls, pts, root, fuel).value;
      EndOfTickValid(CapturePass(moved, holes, t.turn).1, allStopped);
    }
  }

  /** The game starts valid, with 22 balls of which exactly one is the cue ball. */
  lemma InitialTableShape()
    ensures Turns.Valid(InitialTable().turn) && Boundary.Valid(InitialTable().osc)
    ensures |InitialTable().balls| == 22 && CueCount(InitialTable().balls) == 1
  {
    var bs := SetupBalls();
    SetupShape();
    NoCues(bs[1..]);
  }

  lemma {:induction false} NoCues(bs: seq<Ball>)
    requires forall k :: 0 <= k < |bs| ==> bs[k].kind.Object?
    ensures CueCount(bs) == 0
    decreases |bs|
  {
    if bs != [] {
      NoCues(bs[1..]);
    }
  }

  /** The ball touches none of the polygon's edges, and none has zero length. */
  predicate ClearOfEdges(b: Ball, pts: seq<Vec>)
  {
    forall j :: 0 <= j < |pts| ==>
      pts[j] != EdgeEnd(pts, j) && !Touches(b.pos, b.radius, pts[j], EdgeEnd(pts, j))
  }

  /** A ball at rest stays where it is: nothing moves and the flips of a zero
      velocity are zero. */
  lemma MoveAtRest(b: Ball)
    requires b.vel == Zero
    ensures Move(b) == b
  {
    assert Add(b.pos, b.vel) == b.pos;
    assert Scale(Friction, b.vel) == Zero;
  }

  /** Steps that all succeed collect into their values. */
  lemma CollectAllOk<T>(rs: seq<Result<T>>, vs: seq<T>)
    requires |rs| == |vs| && forall k :: 0 <= k < |rs| ==> rs[k] == Ok(vs[k])
    ensures Collect(rs) == Ok(vs)
  {
    var res := Collect(rs);
    if res.Ok? {
      assert forall k :: 0 <= k < |rs| ==> res.value[k] == vs[k];
      assert res.value == vs;
    }
  }

  /** A ball at rest and clear of every edge comes through its motion step unchanged. */
  lemma MotionStepAtRest(b: Ball, pts: seq<Vec>, root: real -> real, fuel: nat)
    requires IsSqrt(root) && b.vel == Zero && ClearOfEdges(b, pts)
    ensures MotionStep(b, pts, root, fuel) == Ok(b)
  {
    MoveAtRest(b);
    WallPassQuiet(b, pts, 0, root, fuel);
  }

  /** Balls at rest and clear of every edge come through the motion pass unchanged. */
  lemma MotionPassAtRest(bs: seq<Ball>, pts: seq<Vec>, root: real -> real, fuel: nat)
    requires IsSqrt(root)
    requires forall i :: 0 <= i < |bs| ==> bs[i].vel == Zero && ClearOfEdges(bs[i], pts)
    ensures MotionPass(bs, pts, root, fuel) == Ok(bs)
  {
    var rs := MotionSteps(bs, pts, root, fuel);
    forall k | 0 <= k < |bs|
      ensures rs[k] == Ok(bs[k])
    {
      MotionStepAtRest(bs[k], pts, root, fuel);
    }
    CollectAllOk(rs, bs);
  }

  /** A table at rest, every ball clear of the edges, out of the holes and
      apart from the others, passes a frame unchanged: the frame succeeds,
      and only the turn state and the boundary parameter move on. */
  lemma FrameAtRest(t: Table, pts: seq<Vec>, allStopped: bool, root: real -> real, fuel: nat)
    requires IsSqrt(root) && NumHoles <= |pts|
    requires forall i :: 0 <= i < |t.balls| ==> t.balls[i].vel == Zero && ClearOfEdges(t.balls[i], pts)
    requires forall i :: 0 <= i < |t.balls| ==> !Captured(t.balls[i], HolesFromPoints(pts, NumHoles).value)
    requires forall i, j :: 0 <= i < j < |t.balls| ==> !Overlapping(t.balls[i], t.balls[j])
    ensures Frame(t, pts, allStopped, root, fuel)
         == Ok(Table(t.balls, EndOfTick(t.turn, allStopped), Advance(t.osc, DeltaP)))
  {
    var holes := HolesFromPoints(pts, NumHoles).value;
    MotionPassAtRest(t.balls, pts, root, fuel);
    assert !AnyCaptured(t.balls, holes);
    CapturePassQuiet(t.balls, holes, t.turn);
    CollideAllQuiet(t.balls, root);
  }
}

=== FILE: outcomes.dfy ===
/**
  The Python exceptions the modelled code can raise, as values. An operation
  that can fail returns `Result<T>`; `Err` carries the exception that the
  source would raise at that point.
 */
module Outcomes {

  datatype Fault =
    | ZeroDivision        // float or integer division by zero (ZeroDivisionError)
    | ZeroLengthNormalize // Vector2.normalize() of the zero vector (ValueError)
    | ZeroRangeStep       // range(start, stop, 0) (ValueError)
    | OutOfFuel           // a push-out loop that did not finish within its fuel

  datatype Result<T> = Ok(value: T) | Err(fault: Fault)

  /** A list of outcomes as one outcome, the way a loop over them runs:
      the first failure is the result; with none, every value in order. */
  function Collect<T>(rs: seq<Result<T>>): (res: Result<seq<T>>)
    ensures res.Ok? ==> |res.value| == |rs| && forall k :: 0 <= k < |rs| ==> rs[k] == Ok(res.value[k])
    ensures res.Err? ==>
      exists k :: 0 <= k < |rs| && rs[k] == Err(res.fault) && forall j :: 0 <= j < k ==> rs[j].Ok?
    decreases |rs|
  {
    if rs == [] then Ok([])
    else
      match rs[0]
      case Err(f) => Err(f)
      case Ok(v) =>
        match Collect(rs[1..])
        case Err(f) =>
          CollectTail(rs, f);
          Err(f)
        case Ok(vs) =>
          assert forall k :: 1 <= k < |rs| ==> rs[k] == rs[1..][k - 1];
          Ok([v] + vs)
  }

  lemma CollectTail<T>(rs: seq<Result<T>>, f: Fault)
    requires rs != [] && rs[0].Ok?
    requires exists k :: 0 <= k < |rs| - 1 && rs[1..][k] == Err(f) && forall j :: 0 <= j < k ==> rs[1..][j].Ok?
    ensures exists k :: 0 <= k < |rs| && rs[k] == Err(f) && forall j :: 0 <= j < k ==> rs[j].Ok?
  {
    var k :| 0 <= k < |rs| - 1 && rs[1..][k] == Err(f) && forall j :: 0 <= j < k ==> rs[1..][j].Ok?;
    assert rs[k + 1] == Err(f);
    forall j | 0 <= j < k + 1
      ensures rs[j].Ok?
    {
      if j > 0 {
        assert rs[j] == rs[1..][j - 1];
      }
    }
  }
}

=== FILE: pockets.dfy ===
/**
  The pockets: `generate_holes_from_points` (and `generate_holes`, which
  applies it to the polygon at its midpoint parameter) places a hole on every
  `step`-th vertex of the table polygon, and a ball is captured when its
  centre lies strictly inside a hole.
 */
module Pockets {
  import opened Vectors
  import opened Outcomes
  import opened Balls

  /** Both the start-up table and every redraw ask for seven holes. */
  const NumHoles: nat := 7

  /** `points[i % len(points)]`: below the length the wrap-around is the identity. */
  function Vertex(points: seq<Vec>, i: nat): (v: Vec)
    requires i < |points|
    ensures v == points[i]
  {
    assert i % |points| == i;
    points[i % |points|]
  }

  /** The holes at vertices `start`, `start + step`, ... below `|points|`: the
      comprehension over `range(start, len(points), step)`, each vertex read
      as `points[i % len(points)]`. The range stops at the first multiple past
      the end. */
  function Stride(points: seq<Vec>, start: nat, step: nat): (hs: seq<Hole>)
    requires step > 0
    ensures hs == [] <==> |points| <= start
    ensures forall j :: 0 <= j < |hs| ==> hs[j].radius == HoleRadius
    decreases |points| - start
  {
    if start >= |points| then []
    else [Hole(Vertex(points, start), HoleRadius)] + Stride(points, start + step, step)
  }

  /** The stride reaches the end: one more step would pass `|points|`. */
  lemma {:induction false} StrideReachesEnd(points: seq<Vec>, start: nat, step: nat)
    requires step > 0
    ensures |points| <= start + |Stride(points, start, step)| * step
    decreases |points| - start
  {
    if start < |points| {
      var r := |Stride(points, start + step, step)|;
      StrideReachesEnd(points, start + step, step);
      NextMultiple(start, step, 1 + r);
    }
  }

  /** The `j`-th hole of a stride sits on vertex `start + j * step`. */
  lemma {:induction false} StrideAt(points: seq<Vec>, start: nat, step: nat, j: nat)
    requires step > 0 && j < |Stride(points, start, step)|
    ensures start + j * step < |points| &&
      Stride(points, start, step)[j] == Hole(points[start + j * step], HoleRadius)
    decreases j
  {
    var hs := Stride(points, start, step);
    if j > 0 {
      var rest := Stride(points, start + step, step);
      assert hs == [Hole(points[start], HoleRadius)] + rest;
      assert hs[j] == rest[j - 1];
      StrideAt(points, start + step, step, j - 1);
      NextMultiple(start, step, j);
    }
  }

  lemma NextMultiple(start: nat, step: nat, j: nat)
    requires j > 0
    ensures start + step + (j - 1) * step == start + j * step
  {
  }

  /** `StrideAt` for every hole at once. */
  lemma StrideAll(points: seq<Vec>, start: nat, step: nat)
    requires step > 0
    ensures forall j :: 0 <= j < |Stride(points, start, step)| ==>
      start + j * step < |points| &&
      Stride(points, start, step)[j] == Hole(points[start + j * step], HoleRadius)
  {
    forall j | 0 <= j < |Stride(points, start, step)|
      ensures start + j * step < |points|
      ensures Stride(points, start, step)[j] == Hole(points[start + j * step], HoleRadius)
    {
      StrideAt(points, start, step, j);
    }
  }

  /** `generate_holes_from_points`: `step = len(points) // num_holes`; a zero
      count divides by zero, and a zero step (fewer points than holes) is an
      error of `range`. Otherwise the holes are the vertices at the multiples
      of the step, and there are at least as many as were asked for. */
  function HolesFromPoints(points: seq<Vec>, numHoles: nat): (res: Result<seq<Hole>>)
    ensures numHoles == 0 <==> res == Err(ZeroDivision)
    ensures res == Err(ZeroRangeStep) <==> 0 < numHoles && |points| < numHoles
    ensures 0 < numHoles <= |points| ==> res.Ok?
    ensures res.Ok? ==> numHoles <= |points| && numHoles <= |res.value|
    ensures res.Ok? ==> forall j :: 0 <= j < |res.value| ==>
      j * (|points| / numHoles) < |points| &&
      res.value[j] == Hole(points[j * (|points| / numHoles)], HoleRadius)
    ensures res.Ok? ==> |points| <= |res.value| * (|points| / numHoles)
  {
    if numHoles == 0 then Err(ZeroDivision)
    else
      var step := |points| / numHoles;
      DivPositive(|points|, numHoles);
      if step == 0 then Err(ZeroRangeStep)
      else
        StrideHoles(points, numHoles, step);
        Ok(Stride(points, 0, step))
  }

  /** The stride from vertex 0 at step `|points| / numHoles` yields at least
      `numHoles` holes, each at its multiple of the step. */
  lemma StrideHoles(points: seq<Vec>, numHoles: nat, step: nat)
    requires 0 < numHoles && step == |points| / numHoles && step > 0
    ensures numHoles <= |Stride(points, 0, step)|
    ensures forall j :: 0 <= j < |Stride(points, 0, step)| ==>
      j * step < |points| && Stride(points, 0, step)[j] == Hole(points[j * step], HoleRadius)
    ensures |points| <= |Stride(points, 0, step)| * step
  {
    var hs := Stride(points, 0, step);
    StrideAll(points, 0, step);
    StrideReachesEnd(points, 0, step);
    assert numHoles * step <= |points|;
    MulCancel(numHoles, |hs|, step);
  }

  /** Floor division is positive exactly when the dividend reaches the divisor. */
  lemma DivPositive(n: nat, k: nat)
    requires k > 0
    ensures n / k > 0 <==> k <= n
  {
  }

  /** A positive factor can be cancelled from an inequality. */
  lemma MulCancel(a: nat, b: nat, s: nat)
    requires s > 0 && a * s <= b * s
    ensures a <= b
  {
  }

  /** Every vertex whose index is a multiple of the step carries a hole. */
  lemma HolesAreStrideVertices(points: seq<Vec>, numHoles: nat, i: nat)
    requires HolesFromPoints(points, numHoles).Ok?
    requires i < |points| && i % (|points| / numHoles) == 0
    ensures Hole(points[i], HoleRadius) in HolesFromPoints(points, numHoles).value
  {
    var step := |points| / numHoles;
    var hs := HolesFromPoints(points, numHoles).value;
    var j := i / step;
    assert j * step == i;
    if j >= |hs| {
      MulCancel(j, |hs|, step);
    }
    assert hs[j] == Hole(points[i], HoleRadius);
  }

  /** The table polygon has fourteen vertices; seven holes land on exactly the
      even-indexed ones. */
  lemma SevenHolesOnFourteenVertices(points: seq<Vec>)
    requires |points| == 14
    ensures HolesFromPoints(points, NumHoles).Ok?
    ensures HolesFromPoints(points, NumHoles).value
         == seq(7, j requires 0 <= j < 7 => Hole(points[2 * j], HoleRadius))
  {
    var hs := HolesFromPoints(points, NumHoles).value;
    assert |points| / NumHoles == 2;
    if |hs| > 7 {
      StrideAt(points, 0, 2, 7);
      assert false;
    }
    assert |hs| == 7;
    forall j | 0 <= j < 7
      ensures hs[j] == Hole(points[2 * j], HoleRadius)
    {
    }
  }

  /** `ball.pos.distance_to(hole.pos) < hole.radius`, squared. */
  predicate InHole(b: Ball, h: Hole)
  {
    0.0 < h.radius && DistSq(b.pos, h.pos) < h.radius * h.radius
  }

  /** `InHole` is the source's test on the true distance. */
  lemma InHoleByDistance(b: Ball, h: Hole, dist: real)
    requires IsLength(dist, Sub(b.pos, h.pos))
    ensures InHole(b, h) <==> dist < h.radius
  {
    LengthBelow(dist, Sub(b.pos, h.pos), h.radius);
  }

  /** The ball lies in at least one of the holes. */
  predicate Captured(b: Ball, holes: seq<Hole>)
  {
    exists i :: 0 <= i < |holes| && InHole(b, holes[i])
  }
}

=== FILE: rack.dfy ===
/**
  The opening layout (`setup_balls`): the cue ball first, then a triangle of
  six rows, row `r` holding `r` object balls spaced 22 apart and coloured
  from a seven-colour palette by `(row + col) % 7`.
 */
module Rack {
  import opened Vectors
  import opened Balls

  const Spacing: real := 22.0
  const RackRows: nat := 6

  const Palette: seq<Rgb> := [Rgb(255, 0, 0), Rgb(0, 0, 255), Rgb(0, 255, 0), Rgb(255, 255, 0),
                              Rgb(0, 255, 255), Rgb(255, 0, 255), Rgb(255, 165, 0)]

  /** The cue ball starts centred horizontally, 100 above the bottom edge. */
  const CueStart: Vec := Vec(Width / 2.0, Height - 100.0)

  /** The apex of the triangle is the table centre. */
  const Apex: Vec := Vec(Width / 2.0, Height / 2.0)

  /** The `(row, col)` pairs of the nested loops over `range(1, rows + 1)` and
      `range(row)`, in loop order. */
  function Slots(rows: nat): (s: seq<(nat, nat)>)
    ensures forall k :: 0 <= k < |s| ==> 1 <= s[k].0 <= rows && s[k].1 < s[k].0
  {
    if rows == 0 then []
    else Slots(rows - 1) + seq(rows, c requires 0 <= c < rows => (rows, c))
  }

  /** Triangle numbers: the number of slots in the first `n` rows. */
  function Triangle(n: nat): nat
  {
    n * (n + 1) / 2
  }

  lemma {:induction false} SlotsCount(rows: nat)
    ensures |Slots(rows)| == Triangle(rows)
  {
    if rows > 0 {
      SlotsCount(rows - 1);
      assert Triangle(rows) == Triangle(rows - 1) + rows;
    }
  }

  /** Slot `(r, c)` of the triangle is visited at index `Triangle(r - 1) + c`:
      every slot of every row occurs, and nothing else does. */
  lemma {:induction false} SlotIndex(rows: nat, r: nat, c: nat)
    requires 1 <= r <= rows && c < r
    ensures Triangle(r - 1) + c < |Slots(rows)|
    ensures Slots(rows)[Triangle(r - 1) + c] == (r, c)
  {
    SlotsCount(rows - 1);
    if r < rows {
      SlotIndex(rows - 1, r, c);
      assert Triangle(r - 1) + c < Triangle(r);
      TriangleMonotone(r, rows - 1);
    } else {
      assert Slots(rows) == Slots(rows - 1) + seq(rows, c requires 0 <= c < rows => (rows, c));
    }
  }

  lemma TriangleMonotone(m: nat, n: nat)
    requires m <= n
    ensures Triangle(m) <= Triangle(n)
  {
    assert m * (m + 1) <= n * (n + 1);
  }

  /** No slot is visited twice. */
  lemma {:induction false} SlotsDistinct(rows: nat)
    ensures forall i, j :: 0 <= i < j < |Slots(rows)| ==> Slots(rows)[i] != Slots(rows)[j]
  {
    if rows > 0 {
      SlotsDistinct(rows - 1);
      var prev := Slots(rows - 1);
      var s := Slots(rows);
      forall i, j | 0 <= i < j < |s|
        ensures s[i] != s[j]
      {
        if j < |prev| {
          assert s[i] == prev[i] && s[j] == prev[j];
        } else if i < |prev| {
          assert s[i] == prev[i];
          assert s[j].0 == rows;
        } else {
          assert s[i].1 == i - |prev| && s[j].1 == j - |prev|;
        }
      }
    }
  }

  /** Where slot `(r, c)` sits: row `r` lies `r - 1` spacings below the
      apex and is centred under it, its columns one spacing apart. */
  function SlotPosition(r: nat, c: nat): Vec
  {
    Vec(Apex.x + c as real * Spacing - (r as real - 1.0) * Spacing / 2.0,
        Apex.y + (r as real - 1.0) * Spacing)
  }

  /** `colors[(row + col) % len(colors)]`. */
  function SlotColour(r: nat, c: nat): (colour: Rgb)
    ensures colour in Palette
  {
    Palette[(r + c) % |Palette|]
  }

  function RackBall(slot: (nat, nat)): Ball
  {
    NewBall(SlotPosition(slot.0, slot.1), Object(SlotColour(slot.0, slot.1)))
  }

  /** `setup_balls`: the cue ball, then one object ball per slot. */
  function SetupBalls(): (bs: seq<Ball>)
    ensures |bs| == 22
    ensures bs[0].kind == Cue && forall k :: 1 <= k < |bs| ==> bs[k].kind.Object?
  {
    var slots := Slots(RackRows);
    SlotsCount(RackRows);
    [NewBall(CueStart, Cue)] + seq(|slots|, k requires 0 <= k < |slots| => RackBall(slots[k]))
  }

  /** Twenty-two balls, all at rest with the standard radius, the cue ball
      first at its start and every other ball an object ball. */
  lemma SetupShape()
    ensures |SetupBalls()| == 22
    ensures SetupBalls()[0] == Ball(Vec(512.0, 924.0), Zero, BallRadius, Cue)
    ensures forall k :: 1 <= k < |SetupBalls()| ==> SetupBalls()[k].kind.Object?
    ensures forall k :: 0 <= k < |SetupBalls()| ==>
      SetupBalls()[k].vel == Zero && SetupBalls()[k].radius == BallRadius
  {
    SlotsCount(RackRows);
  }

  /** The ball for slot `(r, c)` is at index `Triangle(r - 1) + c + 1`, with
      the slot's position and colour. */
  lemma SetupRackBall(r: nat, c: nat)
    requires 1 <= r <= RackRows && c < r
    ensures Triangle(r - 1) + c + 1 < |SetupBalls()|
    ensures SetupBalls()[Triangle(r - 1) + c + 1]
         == Ball(SlotPosition(r, c), Zero, BallRadius, Object(Palette[(r + c) % 7]))
  {
    var slots := Slots(RackRows);
    var i := Triangle(r - 1) + c;
    SlotIndex(RackRows, r, c);
    assert SetupBalls()[i + 1] == RackBall(slots[i]);
  }

  /** Two different slots are at least one spacing apart. */
  lemma SlotsApart(s1: (nat, nat), s2: (nat, nat))
    requires s1 != s2
    ensures DistSq(SlotPosition(s1.0, s1.1), SlotPosition(s2.0, s2.1)) >= Spacing * Spacing
  {
    var p, q := SlotPosition(s1.0, s1.1), SlotPosition(s2.0, s2.1);
    DistSqCoordinates(p, q);
    if s1.0 != s2.0 {
      var k := s1.0 as int - s2.0 as int;
      assert p.y - q.y == k as real * Spacing;
      AtLeastOneApart(k, p.y - q.y);
    } else {
      var k := s1.1 as int - s2.1 as int;
      assert p.x - q.x == k as real * Spacing;
      AtLeastOneApart(k, p.x - q.x);
    }
  }

  /** The squared distance bounds each squared coordinate difference. */
  lemma DistSqCoordinates(p: Vec, q: Vec)
    ensures DistSq(p, q) >= (p.x - q.x) * (p.x - q.x)
    ensures DistSq(p, q) >= (p.y - q.y) * (p.y - q.y)
  {
    var dx, dy := p.x - q.x, p.y - q.y;
    assert DistSq(p, q) == dx * dx + dy * dy;
    assert dx * dx >= 0.0 && dy * dy >= 0.0;
  }

  /** A nonzero whole number of spacings is at least one spacing. */
  lemma AtLeastOneApart(k: int, d: real)
    requires k != 0 && d == k as real * Spacing
    ensures d * d >= Spacing * Spacing
  {
    var x := k as real;
    if k > 0 {
      assert x >= 1.0;
      calc {
        d * d;
      ==
        (x * Spacing) * (x * Spacing);
      >=
        Spacing * Spacing;
      }
    } else {
      assert x <= -1.0;
      calc {
        d * d;
      ==
        (-x * Spacing) * (-x * Spacing);
      >=
        Spacing * Spacing;
      }
    }
  }

  /** No two balls of the opening layout overlap: every pair of centres is at
      least 22 apart, more than two radii. */
  lemma SetupNoOverlap(i: nat, j: nat)
    requires i < j < |SetupBalls()|
    ensures DistSq(SetupBalls()[i].pos, SetupBalls()[j].pos) >= 484.0
  {
    var bs := SetupBalls();
    var slots := Slots(RackRows);
    SlotsCount(RackRows);
    if i == 0 {
      var s := slots[j - 1];
      assert bs[j].pos == SlotPosition(s.0, s.1);
      DistSqCoordinates(bs[0].pos, bs[j].pos);
      var dy := bs[0].pos.y - bs[j].pos.y;
      assert dy >= 302.0;
      assert dy * dy >= 484.0;
    } else {
      SlotsDistinct(RackRows);
      assert slots[i - 1] != slots[j - 1];
      SlotsApart(slots[i - 1], slots[j - 1]);
    }
  }
}

=== FILE: respawn.dfy ===
/**
  Putting a pocketed cue ball back (`get_free_position`): start at the table
  centre and step diagonally by (5, 5) until no remaining ball is closer than
  twice its own radius.
 */
module Respawn {
  import opened Vectors
  import opened Balls

  const TableCentre: Vec := Vec(Width / 2.0, Height / 2.0)
  const Nudge: Vec := Vec(5.0, 5.0)

  /** The `k`-th place the search tries. */
  function Candidate(k: nat): Vec
  {
    Add(TableCentre, Scale(k as real, Nudge))
  }

  /** `ball.pos.distance_to(center_pos) < 2 * ball.radius`, squared. */
  predicate Blocks(b: Ball, c: Vec)
  {
    0.0 < 2.0 * b.radius && DistSq(b.pos, c) < (2.0 * b.radius) * (2.0 * b.radius)
  }

  /** `Blocks` is the source's test on the true distance. */
  lemma BlocksByDistance(b: Ball, c: Vec, dist: real)
    requires IsLength(dist, Sub(b.pos, c))
    ensures Blocks(b, c) <==> dist < 2.0 * b.radius
  {
    LengthBelow(dist, Sub(b.pos, c), 2.0 * b.radius);
  }

  /** The `any(...)` of the loop condition. */
  predicate Blocked(others: seq<Ball>, c: Vec)
  {
    exists i :: 0 <= i < |others| && Blocks(others[i], c)
  }

  /** A number of steps after which `b` blocks no candidate: the diagonal
      walk has then left `b`'s exclusion disc in the x direction alone. */
  function ClearFrom(b: Ball): nat
  {
    if 2.0 * b.radius <= 0.0 then 0
    else
      var gap := if b.pos.x >= TableCentre.x then b.pos.x - TableCentre.x else TableCentre.x - b.pos.x;
      var q := (2.0 * b.radius + gap) / 5.0;
      assert q >= 0.0;
      q.Floor as nat + 1
  }

  lemma {:induction false} NotBlockingBeyond(b: Ball, k: nat)
    requires ClearFrom(b) <= k
    ensures !Blocks(b, Candidate(k))
  {
    var r2 := 2.0 * b.radius;
    if 0.0 < r2 {
      var gap := if b.pos.x >= TableCentre.x then b.pos.x - TableCentre.x else TableCentre.x - b.pos.x;
      var q := (r2 + gap) / 5.0;
      var c := Candidate(k);
      assert c.x == TableCentre.x + 5.0 * k as real;
      assert (q.Floor + 1) as real > q;
      assert k as real >= (q.Floor + 1) as real;
      var dx := c.x - b.pos.x;
      assert dx > r2;
      calc {
        r2 * r2;
      <
        dx * r2;
      <
        dx * dx;
      }
      var dy := c.y - b.pos.y;
      assert dy * dy >= 0.0;
      assert DistSq(b.pos, c) == dx * dx + dy * dy;
    }
  }

  /** The largest `ClearFrom` among the balls. */
  function SearchBound(others: seq<Ball>): (n: nat)
    ensures forall i :: 0 <= i < |others| ==> ClearFrom(others[i]) <= n
  {
    if others == [] then 0
    else
      var rest := SearchBound(others[1..]);
      assert forall i :: 1 <= i < |others| ==> others[i] == others[1..][i - 1];
      if ClearFrom(others[0]) > rest then ClearFrom(others[0]) else rest
  }

  /** Only candidates before the bound can be blocked: the search always ends. */
  lemma BlockedBeforeBound(others: seq<Ball>, k: nat)
    ensures Blocked(others, Candidate(k)) ==> k < SearchBound(others)
  {
    if SearchBound(others) <= k {
      forall i | 0 <= i < |others|
        ensures !Blocks(others[i], Candidate(k))
      {
        NotBlockingBeyond(others[i], k);
      }
    }
  }

  /** The number of steps the search takes from step `k` on: the first
      unblocked candidate at or after `k`. */
  function FreeSteps(others: seq<Ball>, k: nat): (n: nat)
    requires k <= SearchBound(others)
    ensures k <= n <= SearchBound(others)
    ensures !Blocked(others, Candidate(n))
    ensures forall j :: k <= j < n ==> Blocked(others, Candidate(j))
    decreases SearchBound(others) - k
  {
    if !Blocked(others, Candidate(k)) then k
    else
      BlockedBeforeBound(others, k);
      FreeSteps(others, k + 1)
  }

  /** Where the search puts the cue ball. */
  function FreePosition(others: seq<Ball>): (pos: Vec)
    ensures exists k: nat :: pos == Candidate(k) && forall j :: 0 <= j < k ==> Blocked(others, Candidate(j))
    ensures forall i :: 0 <= i < |others| ==> !Blocks(others[i], pos)
  {
    var k := FreeSteps(others, 0);
    Candidate(k)
  }

  /** If nothing is near the centre, the centre itself is returned. */
  lemma FreeCentre(others: seq<Ball>)
    requires !Blocked(others, TableCentre)
    ensures FreePosition(others) == TableCentre
  {
    assert Candidate(0) == TableCentre;
  }

  /** The first free candidate is unique: any `n` with every candidate from
      `k` up to it blocked and itself free is what `FreeSteps` returns. */
  lemma {:induction false} FreeStepsIsFirst(others: seq<Ball>, k: nat, n: nat)
    requires k <= n
    requires !Blocked(others, Candidate(n))
    requires forall j :: k <= j < n ==> Blocked(others, Candidate(j))
    ensures k <= SearchBound(others) ==> FreeSteps(others, k) == n
    decreases n - k
  {
    if k < n && k <= SearchBound(others) {
      assert Blocked(others, Candidate(k));
      BlockedBeforeBound(others, k);
      FreeStepsIsFirst(others, k + 1, n);
    }
  }

  /** `get_free_position` as the loop it is. */
  method GetFreePosition(others: seq<Ball>) returns (pos: Vec)
    ensures pos == FreePosition(others)
    ensures !Blocked(others, pos)
  {
    pos := TableCentre;
    var k: nat := 0;
    while exists i :: 0 <= i < |others| && Blocks(others[i], pos)
      invariant k <= SearchBound(others)
      invariant pos == Candidate(k)
      invariant forall j :: 0 <= j < k ==> Blocked(others, Candidate(j))
      decreases SearchBound(others) - k
    {
      BlockedBeforeBound(others, k);
      pos := Add(pos, Nudge);
      k := k + 1;
    }
    FreeStepsIsFirst(others, 0, k);
  }
}

=== FILE: turns.dfy ===
/**
  Whose turn it is and the score: `init_game_state`, `switch_player`, the
  scoring done when a ball drops (inside the capture loop of `run`) and the
  end-of-frame rule that hands the turn over once every ball has stopped.
 */
module Turns {

  /** `current_player`, the two scores, `player_scored` and `ball_was_moving`. */
  datatype TurnState = TurnState(current: int, score1: nat, score2: nat, scored: bool, wasMoving: bool)

  /** `init_game_state` followed by the two flags `run` clears before its loop. */
  const Initial: TurnState := TurnState(1, 0, 0, false, false)

  /** Player 1 or player 2 is to play. */
  predicate Valid(s: TurnState)
  {
    s.current == 1 || s.current == 2
  }

  /** `switch_player`: `3 - current_player`. */
  function SwitchPlayer(p: int): (q: int)
    ensures p == 1 <==> q == 2
    ensures p == 2 <==> q == 1
  {
    3 - p
  }

  /** Switching twice gives the player back. */
  lemma SwitchInvolutive(p: int)
    ensures SwitchPlayer(SwitchPlayer(p)) == p
  {
  }

  /** The hand-over written out in `run`: 1 becomes 2, anything else becomes 1. */
  function Toggle(p: int): (q: int)
    ensures q == 1 || q == 2
    ensures q != p
  {
    if p == 1 then 2 else 1
  }

  /** On valid players the two ways of handing over agree. */
  lemma ToggleIsSwitch(p: int)
    requires p == 1 || p == 2
    ensures Toggle(p) == SwitchPlayer(p)
  {
  }

  /** The counter the capture loop credits when `p` is the current player:
      `score_player1` for player 1, `score_player2` otherwise. */
  function Score(s: TurnState, p: int): nat
  {
    if p == 1 then s.score1 else s.score2
  }

  /** One ball dropped into a hole. An object ball earns a point for the
      current player (the source's comment speaks of the opponent, but the
      counter incremented is the current player's own); a pocketed cue ball
      earns nothing. Either way the shot counts as having scored. */
  function AwardCapture(s: TurnState, cue: bool): (t: TurnState)
    ensures t.scored
    ensures t.current == s.current && t.wasMoving == s.wasMoving
    ensures Score(t, s.current) == Score(s, s.current) + (if cue then 0 else 1)
    ensures Score(t, Toggle(s.current)) == Score(s, Toggle(s.current))
  {
    if cue then s.(scored := true)
    else if s.current == 1 then s.(score1 := s.score1 + 1, scored := true)
    else s.(score2 := s.score2 + 1, scored := true)
  }

  /** A capture adds at most one point in total and never takes one away. */
  lemma AwardCaptureTotals(s: TurnState, cue: bool)
    ensures var t := AwardCapture(s, cue);
      && t.score1 >= s.score1 && t.score2 >= s.score2
      && t.score1 + t.score2 == s.score1 + s.score2 + (if cue then 0 else 1)
  {
  }

  /** The end-of-frame rule: on the frame where the balls come to rest after
      moving, the turn passes unless the player scored, and the scored flag
      is cleared; `ball_was_moving` then records whether anything moves. */
  function EndOfTick(s: TurnState, allStopped: bool): (t: TurnState)
    ensures t.current != s.current <==> allStopped && s.wasMoving && !s.scored
    ensures t.current != s.current ==> t.current == Toggle(s.current)
    ensures t.scored <==> s.scored && !(allStopped && s.wasMoving)
    ensures t.wasMoving == !allStopped
    ensures t.score1 == s.score1 && t.score2 == s.score2
  {
    var s1 :=
      if allStopped && s.wasMoving then
        s.(current := if !s.scored then Toggle(s.current) else s.current, scored := false)
      else s;
    s1.(wasMoving := !allStopped)
  }

  /** The end-of-frame rule keeps the player valid. */
  lemma EndOfTickValid(s: TurnState, allStopped: bool)
    requires Valid(s)
    ensures Valid(EndOfTick(s, allStopped))
  {
  }

  /** The hand-over is edge-triggered: a second frame at rest changes nothing. */
  lemma EndOfTickSettles(s: TurnState)
    ensures EndOfTick(EndOfTick(s, true), true) == EndOfTick(s, true)
  {
  }

  /** The frames where the table comes to rest after moving. */
  function Stops(wasMoving: bool, frames: seq<bool>): nat
    decreases |frames|
  {
    if frames == [] then 0
    else (if frames[0] && wasMoving then 1 else 0) + Stops(!frames[0], frames[1..])
  }

  /** The end-of-frame rule over a run of frames, each given by whether every
      ball is at rest. */
  function RunFrames(s: TurnState, frames: seq<bool>): TurnState
    decreases |frames|
  {
    if frames == [] then s else RunFrames(EndOfTick(s, frames[0]), frames[1..])
  }

  /** Without scoring, the turn changes at every frame where the table comes to
      rest and at no other: the player after a run is the starting player
      switched once per stop. */
  lemma {:induction false} RunFramesAlternates(s: TurnState, frames: seq<bool>)
    requires Valid(s) && !s.scored
    ensures Valid(RunFrames(s, frames)) && !RunFrames(s, frames).scored
    ensures RunFrames(s, frames).current
         == if Stops(s.wasMoving, frames) % 2 == 0 then s.current else SwitchPlayer(s.current)
    ensures RunFrames(s, frames).score1 == s.score1 && RunFrames(s, frames).score2 == s.score2
    decreases |frames|
  {
    if frames != [] {
      var t := EndOfTick(s, frames[0]);
      RunFramesAlternates(t, frames[1..]);
      SwitchInvolutive(s.current);
      ToggleIsSwitch(s.current);
    }
  }
}

=== FILE: vectors.dfy ===
/**
  Plane vectors over exact reals: the part of pygame's `Vector2` that the
  physics uses. Lengths are never computed; a caller that needs `length()`
  or `distance_to()` supplies the value together with the fact that it is
  the square root (`IsLength`), or a square-root function (`IsSqrt`).
 */
module Vectors {

  datatype Vec = Vec(x: real, y: real)

  const Zero: Vec := Vec(0.0, 0.0)

  function Add(a: Vec, b: Vec): Vec { Vec(a.x + b.x, a.y + b.y) }

  function Sub(a: Vec, b: Vec): Vec { Vec(a.x - b.x, a.y - b.y) }

  function Scale(k: real, a: Vec): Vec { Vec(k * a.x, k * a.y) }

  function Dot(a: Vec, b: Vec): real { a.x * b.x + a.y * b.y }

  function LenSq(a: Vec): real { Dot(a, a) }

  function DistSq(a: Vec, b: Vec): real { LenSq(Sub(a, b)) }

  /** pygame's `rotate(90)`: a quarter turn counter-clockwise. */
  function Rot90(a: Vec): Vec { Vec(-a.y, a.x) }

  /** The tangent the ball-ball collision pairs with a normal: `Vector2(n.y, -n.x)`. */
  function Tangent(n: Vec): Vec { Vec(n.y, -n.x) }

  predicate IsUnit(n: Vec) { LenSq(n) == 1.0 }

  /** `len` is the Euclidean length of `a`. */
  predicate IsLength(len: real, a: Vec) { 0.0 <= len && len * len == LenSq(a) }

  /** `root` is the non-negative square root on the non-negative reals. */
  ghost predicate IsSqrt(root: real -> real)
  {
    forall x :: 0.0 <= x ==> 0.0 <= root(x) && root(x) * root(x) == x
  }

  lemma LenSqNonNegative(a: Vec)
    ensures LenSq(a) >= 0.0
  {
    calc {
      LenSq(a);
    ==
      a.x * a.x + a.y * a.y;
    >=
      0.0;
    }
  }

  /** Only the zero vector has squared length zero. */
  lemma LenSqZero(a: Vec)
    ensures LenSq(a) == 0.0 <==> a == Zero
  {
    if a.x != 0.0 {
      calc {
        LenSq(a);
      ==
        a.x * a.x + a.y * a.y;
      >
        0.0;
      }
    } else if a.y != 0.0 {
      calc {
        LenSq(a);
      ==
        a.y * a.y;
      >
        0.0;
      }
    }
  }

  /** Two points coincide exactly when their difference is zero. */
  lemma SubZero(p: Vec, q: Vec)
    ensures Sub(p, q) == Zero <==> p == q
  {
  }

  /** A supplied length is zero exactly for the zero vector. */
  lemma LengthZero(len: real, a: Vec)
    requires IsLength(len, a)
    ensures len == 0.0 <==> a == Zero
    ensures a != Zero ==> len > 0.0
  {
    LenSqZero(a);
    if len != 0.0 {
      calc {
        LenSq(a);
      ==
        len * len;
      >
        0.0;
      }
    }
  }

  /** `IsSqrt` instantiated at a squared length. */
  lemma RootIsLength(root: real -> real, a: Vec)
    requires IsSqrt(root)
    ensures IsLength(root(LenSq(a)), a)
  {
    LenSqNonNegative(a);
  }

  /** `length < r` in terms of squared lengths. */
  lemma LengthBelow(len: real, a: Vec, r: real)
    requires IsLength(len, a)
    ensures len < r <==> 0.0 < r && LenSq(a) < r * r
  {
    if len < r {
      calc {
        LenSq(a);
      ==
        len * len;
      <=
        len * r;
      <
        r * r;
      }
    } else if 0.0 < r {
      calc {
        r * r;
      <=
        r * len;
      <=
        len * len;
      ==
        LenSq(a);
      }
    }
  }

  /** `length <= r` in terms of squared lengths. */
  lemma LengthAtMost(len: real, a: Vec, r: real)
    requires IsLength(len, a)
    ensures len <= r <==> 0.0 <= r && LenSq(a) <= r * r
  {
    if len <= r {
      calc {
        LenSq(a);
      ==
        len * len;
      <=
        len * r;
      <=
        r * r;
      }
    } else if 0.0 <= r {
      calc {
        r * r;
      <=
        r * len;
      <
        len * len;
      ==
        LenSq(a);
      }
    }
  }

  /** A unit normal and its tangent form an orthonormal basis: every vector is
      the sum of its normal and tangential parts. */
  lemma Decompose(v: Vec, n: Vec)
    requires IsUnit(n)
    ensures IsUnit(Tangent(n)) && Dot(n, Tangent(n)) == 0.0
    ensures v == Add(Scale(Dot(v, n), n), Scale(Dot(v, Tangent(n)), Tangent(n)))
  {
    var t := Tangent(n);
    var a, b := Dot(v, n), Dot(v, t);
    calc {
      a * n.x + b * t.x;
      (v.x * n.x + v.y * n.y) * n.x + (v.x * n.y - v.y * n.x) * n.y;
      v.x * (n.x * n.x + n.y * n.y);
      v.x;
    }
    calc {
      a * n.y + b * t.y;
      (v.x * n.x + v.y * n.y) * n.y - (v.x * n.y - v.y * n.x) * n.x;
      v.y * (n.x * n.x + n.y * n.y);
      v.y;
    }
  }

  /** Components of `a * n + b * t` along an orthonormal pair. */
  lemma ComponentsOfCombination(a: real, b: real, n: Vec)
    requires IsUnit(n)
    ensures Dot(Add(Scale(a, n), Scale(b, Tangent(n))), n) == a
    ensures Dot(Add(Scale(a, n), Scale(b, Tangent(n))), Tangent(n)) == b
  {
    var w := Add(Scale(a, n), Scale(b, Tangent(n)));
    calc {
      Dot(w, n);
      (a * n.x + b * n.y) * n.x + (a * n.y - b * n.x) * n.y;
      a * (n.x * n.x + n.y * n.y);
      a;
    }
    calc {
      Dot(w, Tangent(n));
      (a * n.x + b * n.y) * n.y - (a * n.y - b * n.x) * n.x;
      b * (n.x * n.x + n.y * n.y);
      b;
    }
  }

  /** Scaling multiplies the squared length by the square of the factor. */
  lemma ScaleLenSq(k: real, a: Vec)
    ensures LenSq(Scale(k, a)) == k * k * LenSq(a)
  {
    calc {
      LenSq(Scale(k, a));
      (k * a.x) * (k * a.x) + (k * a.y) * (k * a.y);
      k * k * (a.x * a.x + a.y * a.y);
    }
  }

  /** Two combinations of the same pair of vectors add coefficient-wise. */
  lemma CombineOnPair(r1: real, p1: real, q1: real, r2: real, p2: real, q2: real, n: Vec, t: Vec)
    ensures Add(Scale(r1, Add(Scale(p1, n), Scale(q1, t))), Scale(r2, Add(Scale(p2, n), Scale(q2, t))))
         == Add(Scale(r1 * p1 + r2 * p2, n), Scale(r1 * q1 + r2 * q2, t))
  {
    calc {
      r1 * (p1 * n.x + q1 * t.x) + r2 * (p2 * n.x + q2 * t.x);
      (r1 * p1 + r2 * p2) * n.x + (r1 * q1 + r2 * q2) * t.x;
    }
    calc {
      r1 * (p1 * n.y + q1 * t.y) + r2 * (p2 * n.y + q2 * t.y);
      (r1 * p1 + r2 * p2) * n.y + (r1 * q1 + r2 * q2) * t.y;
    }
  }

  /** Scaling a vector by the inverse of its length gives a unit vector. */
  lemma NormalizedIsUnit(len: real, a: Vec)
    requires IsLength(len, a) && len > 0.0
    ensures IsUnit(Scale(1.0 / len, a))
  {
    var k := 1.0 / len;
    assert k * len == 1.0;
    calc {
      LenSq(Scale(k, a));
      k * a.x * (k * a.x) + k * a.y * (k * a.y);
      k * k * LenSq(a);
      k * k * (len * len);
      (k * len) * (k * len);
      1.0;
    }
  }

  /** The squared length is the sum of the squared normal and tangential parts. */
  lemma LenSqOnBasis(v: Vec, n: Vec, a: real, b: real)
    requires IsUnit(n) && a == Dot(v, n) && b == Dot(v, Tangent(n))
    ensures LenSq(v) == a * a + b * b
  {
    calc {
      a * a + b * b;
      (v.x * n.x + v.y * n.y) * (v.x * n.x + v.y * n.y) + (v.x * n.y - v.y * n.x) * (v.x * n.y - v.y * n.x);
      (v.x * v.x + v.y * v.y) * (n.x * n.x + n.y * n.y);
      LenSq(v) * 1.0;
    }
  }
}

=== FILE: walls.dfy ===
/**
  Ball against table edge: the clamped-projection contact test
  (`collides_with_segment`), the velocity reflection and push-out of
  `handle_ball_polygon_collision`, and that routine's pass over every edge
  of the polygon.
 */
module Walls {
  import opened Vectors
  import opened Outcomes
  import opened Balls

  /** The point `a + t * (b - a)` of the segment from `a` to `b`. */
  function SegmentPoint(a: Vec, b: Vec, t: real): Vec
  {
    Add(a, Scale(t, Sub(b, a)))
  }

  /** Python's `max(0, min(1, u))`. */
  function Clamp01(u: real): (t: real)
    ensures 0.0 <= t <= 1.0
    ensures 0.0 <= u <= 1.0 ==> t == u
    ensures u < 0.0 ==> t == 0.0
    ensures u > 1.0 ==> t == 1.0
  {
    if 1.0 < u then 1.0 else if u < 0.0 then 0.0 else u
  }

  /** The projection parameter of `p` onto the segment, clamped to the segment. */
  function ProjectionParam(p: Vec, a: Vec, b: Vec): (t: real)
    requires a != b
    ensures 0.0 <= t <= 1.0
  {
    var d := Sub(b, a);
    assert d != Zero by {
      assert a == Add(b, Vec(-d.x, -d.y));
    }
    LenSqZero(d);
    var den := LenSq(d);
    Clamp01(Dot(Sub(p, a), d) / den)
  }

  /** Contact as the source decides it: the distance from `p` to the clamped
      projection is at most `r` (squared, see `Vectors.LengthAtMost`). */
  predicate Touches(p: Vec, r: real, a: Vec, b: Vec)
    requires a != b
  {
    0.0 <= r && DistSq(p, SegmentPoint(a, b, ProjectionParam(p, a, b))) <= r * r
  }

  /** Contact as geometry defines it: some point of the segment lies in the
      closed disc of radius `r` about `p`. */
  ghost predicate DiscMeetsSegment(p: Vec, r: real, a: Vec, b: Vec)
  {
    0.0 <= r && exists s :: 0.0 <= s <= 1.0 && DistSq(p, SegmentPoint(a, b, s)) <= r * r
  }

  /** The squared distance to a point of the line through the segment, as a
      quadratic in the parameter. */
  lemma DistSqAlong(p: Vec, a: Vec, b: Vec, s: real)
    ensures DistSq(p, SegmentPoint(a, b, s))
         == LenSq(Sub(p, a)) - 2.0 * s * Dot(Sub(p, a), Sub(b, a)) + s * s * LenSq(Sub(b, a))
  {
    var w, l := Sub(p, a), Sub(b, a);
    var d := Sub(p, SegmentPoint(a, b, s));
    assert d.x == w.x - s * l.x && d.y == w.y - s * l.y;
    SquareOfDifference(w.x, s, l.x);
    SquareOfDifference(w.y, s, l.y);
  }

  lemma SquareOfDifference(u: real, s: real, v: real)
    ensures (u - s * v) * (u - s * v) == u * u - 2.0 * s * (u * v) + s * s * (v * v)
  {
  }

  /** The quadratic `s*s*d - 2*s*wl` (with `d > 0`) is smallest on [0,1] at
      the clamped vertex `wl / d`. */
  lemma ClampedVertexIsMinimum(d: real, wl: real, s: real)
    requires d > 0.0 && 0.0 <= s <= 1.0
    ensures var t := Clamp01(wl / d);
      t * t * d - 2.0 * t * wl <= s * s * d - 2.0 * s * wl
  {
    var u := wl / d;
    assert wl == u * d;
    if u < 0.0 {
      VertexBelow(d, u, wl, s);
    } else if u > 1.0 {
      VertexAbove(d, u, wl, s);
    } else {
      VertexInside(d, u, wl, s);
    }
  }

  /** Vertex left of the segment: the minimum on [0,1] is at 0. */
  lemma VertexBelow(d: real, u: real, wl: real, s: real)
    requires d > 0.0 && 0.0 <= s <= 1.0 && wl == u * d && u < 0.0
    ensures 0.0 <= s * s * d - 2.0 * s * wl
  {
    assert wl < 0.0 by {
      assert u * d < 0.0;
    }
    assert s * s * d >= 0.0;
    assert s * wl <= 0.0;
  }

  /** Vertex right of the segment: the minimum on [0,1] is at 1. */
  lemma VertexAbove(d: real, u: real, wl: real, s: real)
    requires d > 0.0 && 0.0 <= s <= 1.0 && wl == u * d && u > 1.0
    ensures d - 2.0 * wl <= s * s * d - 2.0 * s * wl
  {
    assert wl > d by {
      assert (u - 1.0) * d > 0.0;
    }
    var k := (s + 1.0) * d - 2.0 * wl;
    assert k < 0.0;
    assert (s - 1.0) * k >= 0.0;
    assert s * s * d - 2.0 * s * wl - (d - 2.0 * wl) == (s - 1.0) * k;
  }

  /** Vertex inside the segment: the minimum is at the vertex itself. */
  lemma VertexInside(d: real, u: real, wl: real, s: real)
    requires d > 0.0 && wl == u * d
    ensures u * u * d - 2.0 * u * wl <= s * s * d - 2.0 * s * wl
  {
    var q := (s - u) * (s - u);
    assert q >= 0.0;
    assert q * d >= 0.0;
    assert s * s * d - 2.0 * s * wl - (u * u * d - 2.0 * u * wl) == q * d;
  }

  /** The projection parameter is the clamped vertex of the distance
      quadratic, over a positive squared edge length. */
  lemma ProjectionParamIsVertex(p: Vec, a: Vec, b: Vec)
    requires a != b
    ensures LenSq(Sub(b, a)) > 0.0
    ensures ProjectionParam(p, a, b) == Clamp01(Dot(Sub(p, a), Sub(b, a)) / LenSq(Sub(b, a)))
  {
    var l := Sub(b, a);
    assert l != Zero by {
      assert a == Add(b, Vec(-l.x, -l.y));
    }
    LenSqZero(l);
    LenSqNonNegative(l);
  }

  /** Adding the same constant keeps an inequality between two quadratics. */
  lemma ShiftQuadratic(c: real, t: real, s: real, wl: real, d: real)
    requires t * t * d - 2.0 * t * wl <= s * s * d - 2.0 * s * wl
    ensures c - 2.0 * t * wl + t * t * d <= c - 2.0 * s * wl + s * s * d
  {
  }

  /** The clamped projection is the point of the segment nearest to `p`. */
  lemma {:induction false} ProjectionIsNearest(p: Vec, a: Vec, b: Vec, s: real)
    requires a != b && 0.0 <= s <= 1.0
    ensures DistSq(p, SegmentPoint(a, b, ProjectionParam(p, a, b))) <= DistSq(p, SegmentPoint(a, b, s))
  {
    var t := ProjectionParam(p, a, b);
    var w, l := Sub(p, a), Sub(b, a);
    ProjectionParamIsVertex(p, a, b);
    ClampedVertexIsMinimum(LenSq(l), Dot(w, l), s);
    ShiftQuadratic(LenSq(w), t, s, Dot(w, l), LenSq(l));
    DistSqAlong(p, a, b, s);
    DistSqAlong(p, a, b, t);
  }

  /** The source's contact test decides exactly whether the disc meets the
      segment. */
  lemma TouchesIffDiscMeetsSegment(p: Vec, r: real, a: Vec, b: Vec)
    requires a != b
    ensures Touches(p, r, a, b) <==> DiscMeetsSegment(p, r, a, b)
  {
    var t := ProjectionParam(p, a, b);
    if DiscMeetsSegment(p, r, a, b) {
      var s :| 0.0 <= s <= 1.0 && DistSq(p, SegmentPoint(a, b, s)) <= r * r;
      ProjectionIsNearest(p, a, b, s);
    }
  }

  /** `collides_with_segment`: a zero-length edge divides by zero. */
  function CollidesWithSegment(p: Vec, r: real, a: Vec, b: Vec): (res: Result<bool>)
    ensures res.Err? <==> a == b
    ensures res.Err? ==> res.fault == ZeroDivision
    ensures res.Ok? ==> (res.value <==> DiscMeetsSegment(p, r, a, b))
  {
    if a == b then Err(ZeroDivision)
    else
      TouchesIffDiscMeetsSegment(p, r, a, b);
      Ok(Touches(p, r, a, b))
  }

  /** The edge normal `(b - a).rotate(90).normalize()`, given the edge length. */
  function EdgeNormal(a: Vec, b: Vec, len: real): (n: Vec)
    requires a != b && IsLength(len, Sub(b, a))
    ensures IsUnit(n)
    ensures Dot(n, Sub(b, a)) == 0.0
    ensures Scale(len, n) == Rot90(Sub(b, a))
  {
    var d := Sub(b, a);
    LengthZero(len, d);
    assert IsLength(len, Rot90(d)) by {
      assert LenSq(Rot90(d)) == LenSq(d);
    }
    NormalizedIsUnit(len, Rot90(d));
    var n := Scale(1.0 / len, Rot90(d));
    calc {
      Dot(n, d);
      (1.0 / len) * (-d.y) * d.x + (1.0 / len) * d.x * d.y;
      0.0;
    }
    n
  }

  /** `v - 2 (v . n) n`: mirror the velocity in the line with unit normal `n`. */
  function Reflect(v: Vec, n: Vec): (r: Vec)
    requires IsUnit(n)
    ensures Dot(r, n) == -Dot(v, n)
    ensures Dot(r, Tangent(n)) == Dot(v, Tangent(n))
    ensures LenSq(r) == LenSq(v)
  {
    var k := 2.0 * Dot(v, n);
    var r := Sub(v, Scale(k, n));
    Decompose(v, n);
    Decompose(r, n);
    calc {
      Dot(r, n);
      Dot(v, n) - k * LenSq(n);
      -Dot(v, n);
    }
    calc {
      Dot(r, Tangent(n));
      Dot(v, Tangent(n)) - k * Dot(n, Tangent(n));
      Dot(v, Tangent(n));
    }
    LenSqOnBasis(v, n, Dot(v, n), Dot(v, Tangent(n)));
    LenSqOnBasis(r, n, Dot(r, n), Dot(r, Tangent(n)));
    r
  }

  /** Reflecting twice in the same wall restores the velocity. */
  lemma ReflectInvolutive(v: Vec, n: Vec)
    requires IsUnit(n)
    ensures Reflect(Reflect(v, n), n) == v
  {
    var w := Reflect(Reflect(v, n), n);
    Decompose(v, n);
    Decompose(w, n);
  }

  /** Reflecting in an edge keeps the velocity component along that edge. */
  lemma ReflectKeepsAlongEdge(v: Vec, a: Vec, b: Vec, len: real)
    requires a != b && IsLength(len, Sub(b, a))
    ensures Dot(Reflect(v, EdgeNormal(a, b, len)), Sub(b, a)) == Dot(v, Sub(b, a))
  {
    var d := Sub(b, a);
    var n := EdgeNormal(a, b, len);
    var r := Reflect(v, n);
    calc {
      Dot(r, d);
      Dot(v, d) - 2.0 * Dot(v, n) * Dot(n, d);
      Dot(v, d);
    }
  }

  /** The position after `k` unit pushes along `step`. */
  function Pushed(p: Vec, step: Vec, k: nat): Vec
  {
    Add(p, Scale(k as real, step))
  }

  lemma PushedShift(p: Vec, step: Vec)
    ensures Pushed(p, step, 0) == p
    ensures forall k: nat {:trigger Pushed(p, step, k + 1)} ::
      Pushed(Add(p, step), step, k) == Pushed(p, step, k + 1)
  {
  }

  /** The push-out loop `while collides: pos += step`, run with explicit fuel.
      Its result is the number of pushes: the first count at which the ball
      no longer touches the edge. */
  function PushOut(p: Vec, r: real, a: Vec, b: Vec, step: Vec, fuel: nat): (res: Result<nat>)
    requires a != b
    ensures res.Err? ==> res.fault == OutOfFuel
    ensures res.Ok? ==> res.value <= fuel && !Touches(Pushed(p, step, res.value), r, a, b)
    ensures res.Ok? ==> forall j: nat :: j < res.value ==> Touches(Pushed(p, step, j), r, a, b)
    ensures res.Err? ==> forall j: nat :: j <= fuel ==> Touches(Pushed(p, step, j), r, a, b)
    decreases fuel
  {
    PushedShift(p, step);
    if !Touches(p, r, a, b) then Ok(0)
    else if fuel == 0 then Err(OutOfFuel)
    else
      match PushOut(Add(p, step), r, a, b, step, fuel - 1)
      case Err(f) =>
        PushOutPrefix(p, r, a, b, step, fuel);
        Err(f)
      case Ok(k) =>
        PushOutPrefix(p, r, a, b, step, k);
        Ok(k + 1)
  }

  lemma PushedNext(p: Vec, step: Vec, j: nat)
    requires j > 0
    ensures Pushed(p, step, j) == Pushed(Add(p, step), step, j - 1)
  {
    assert j as real * step.x == step.x + (j - 1) as real * step.x;
    assert j as real * step.y == step.y + (j - 1) as real * step.y;
  }

  /** One more push at the front of a run of touching positions. */
  lemma PushOutPrefix(p: Vec, r: real, a: Vec, b: Vec, step: Vec, k: nat)
    requires a != b && Touches(p, r, a, b)
    requires forall j: nat :: j < k ==> Touches(Pushed(Add(p, step), step, j), r, a, b)
    ensures forall j: nat :: j < k + 1 ==> Touches(Pushed(p, step, j), r, a, b)
  {
    forall j: nat | j < k + 1
      ensures Touches(Pushed(p, step, j), r, a, b)
    {
      if j > 0 {
        PushedNext(p, step, j);
      } else {
        assert Pushed(p, step, j) == p;
      }
    }
  }

  /** One edge of `handle_ball_polygon_collision`: on contact, reflect the
      velocity in the edge normal and push the ball out along it. */
  function WallCollision(ball: Ball, a: Vec, b: Vec, len: real, fuel: nat): (res: Result<Ball>)
    requires a != b ==> IsLength(len, Sub(b, a))
    ensures a == b ==> res == Err(ZeroDivision)
    ensures a != b && !Touches(ball.pos, ball.radius, a, b) ==> res == Ok(ball)
    ensures res.Err? && a != b ==> res.fault == OutOfFuel
    ensures res.Err? && a != b ==> forall j: nat :: j <= fuel ==>
      Touches(Pushed(ball.pos, EdgeNormal(a, b, len), j), ball.radius, a, b)
    ensures res.Ok? ==> res.value.radius == ball.radius && res.value.kind == ball.kind
    ensures res.Ok? ==> LenSq(res.value.vel) == LenSq(ball.vel)
    ensures res.Ok? && a != b ==> !Touches(res.value.pos, ball.radius, a, b)
    ensures res.Ok? && a != b && Touches(ball.pos, ball.radius, a, b) ==>
      var n := EdgeNormal(a, b, len);
      && Dot(res.value.vel, n) == -Dot(ball.vel, n)
      && Dot(res.value.vel, Sub(b, a)) == Dot(ball.vel, Sub(b, a))
      && exists k: nat :: k <= fuel && res.value.pos == Pushed(ball.pos, n, k)
           && forall j: nat :: j < k ==> Touches(Pushed(ball.pos, n, j), ball.radius, a, b)
  {
    if a == b then Err(ZeroDivision)
    else if !Touches(ball.pos, ball.radius, a, b) then Ok(ball)
    else
      var n := EdgeNormal(a, b, len);
      ReflectKeepsAlongEdge(ball.vel, a, b, len);
      match PushOut(ball.pos, ball.radius, a, b, n, fuel)
      case Err(f) => Err(f)
      case Ok(k) => Ok(ball.(vel := Reflect(ball.vel, n), pos := Pushed(ball.pos, n, k)))
  }

  /** The `i`-th edge of the closed polygon runs from vertex `i` to vertex `i + 1`, wrapping. */
  function EdgeEnd(pts: seq<Vec>, i: nat): Vec
    requires i < |pts|
  {
    pts[(i + 1) % |pts|]
  }

  /** `handle_ball_polygon_collision` from edge `i` on: every edge in order,
      each with its length taken by `root`. */
  function WallPass(ball: Ball, pts: seq<Vec>, i: nat, root: real -> real, fuel: nat): (res: Result<Ball>)
    requires IsSqrt(root) && i <= |pts|
    ensures res.Ok? ==> res.value.radius == ball.radius && res.value.kind == ball.kind
    ensures res.Ok? ==> LenSq(res.value.vel) == LenSq(ball.vel)
    ensures res.Ok? ==> forall j :: i <= j < |pts| ==> pts[j] != EdgeEnd(pts, j)
    ensures res.Err? && res.fault == ZeroDivision ==> exists j :: i <= j < |pts| && pts[j] == EdgeEnd(pts, j)
    ensures res.Err? ==> res.fault == ZeroDivision || res.fault == OutOfFuel
    decreases |pts| - i
  {
    if i == |pts| then Ok(ball)
    else
      var a, b := pts[i], EdgeEnd(pts, i);
      RootIsLength(root, Sub(b, a));
      match WallCollision(ball, a, b, root(LenSq(Sub(b, a))), fuel)
      case Err(f) => Err(f)
      case Ok(next) => WallPass(next, pts, i + 1, root, fuel)
  }

  /** A ball clear of every edge (none of zero length) comes through the edge
      pass unchanged: the pass does not fail on it. */
  lemma {:induction false} WallPassQuiet(ball: Ball, pts: seq<Vec>, i: nat, root: real -> real, fuel: nat)
    requires IsSqrt(root) && i <= |pts|
    requires forall j :: i <= j < |pts| ==>
      pts[j] != EdgeEnd(pts, j) && !Touches(ball.pos, ball.radius, pts[j], EdgeEnd(pts, j))
    ensures WallPass(ball, pts, i, root, fuel) == Ok(ball)
    decreases |pts| - i
  {
    if i < |pts| {
      RootIsLength(root, Sub(EdgeEnd(pts, i), pts[i]));
      WallPassQuiet(ball, pts, i + 1, root, fuel);
    }
  }
}
